=== FILE: README.md ===
# Optimo Telegram bot: routing, reminders, the reminder sweep, notes and the key-value adapter

Optimo is a Telegram bot with three skills: reminders, notes and decisions. The
webhook (`app/api/telegram/route.ts`) turns each update into one action:
- answer a button press with a prompt;
- show the main menu for `/start`;
- hand the message to the reminders, decisions or notes skill;
- or do nothing.

The reminders skill reads `HH:MM Task`, works out the next time the clock shows
HH:MM, and adds the reminder to the Redis sorted set `tg:reminders`, scored by
its due time. A cron-triggered sweep delivers the reminders and removes them.
The notes skill keeps an in-memory, per-chat log of text notes and
transcribed voice notes. `lib/redis.ts` is a small get/set adapter over Redis.

The project has one module per concern:

| module | file | what it holds |
|---|---|---|
| `Text` | text.dfy | JavaScript character classes (`\d`, `\s`, line terminators), `String.prototype.trim`, integer rendering |
| `Json` | json.dfy | the JSON values the handlers exchange, `JSON.stringify` and `JSON.parse` on them, and their round trip |
| `SortedSet` | zset.dfy | a Redis sorted set: ZADD, ZREM, ZSCORE, and ZRANGE by index and by score |
| `Clock` | clock.dfy | instants as integer milliseconds, a fixed-offset zone, the next due time, `HH:mm` formatting |
| `Telegram` | telegram.dfy | updates, messages, button presses, and the Bot API calls a handler makes |
| `Pattern` | pattern.dfy | the regular expression `^(\d{2}):(\d{2})\s+(.+)`: both `test` and `match` with its groups |
| `Webhook` | webhook.dfy | the router's branch order, and the replies it sends |
| `Reminders` | reminders.dfy | the reminders handler |
| `Cron` | cron.dfy | the sweep, with a Telegram/Redis outcome per fetched member |
| `Notes` | notes.dfy | the note log, the transcription polling loop and the notes handler |
| `Kv` | kv.dfy | `kvGet` and `kvSet` over an optional map store |

## Model

Each handler is modelled in one of two ways:
- as a pure function from its inputs (the request body, the store, clock readings) to its outputs (Bot API calls in order, the JSON reply, the new store);
- or, for a loop, as a method that is proved to agree with such a function.

External services enter as parameters:
- a transcript for the transcription service;
- one `Attempt` per fetched member for Telegram and Redis in the sweep.

| member | source | states |
|---|---|---|
| `Webhook.Classify` | app/api/telegram/route.ts:52-121 | The branch taken, in source order: (1) It fails exactly when a button press carries no message. (2) It is a button press exactly when the press carries one. (3) A hand-off carries the update's message, which has text or a voice. (4) It goes to reminders exactly when there is no button press, the message does not start with `/start`, and its tested text is reminder-shaped. |
| `Webhook.PromptFor` | app/api/telegram/route.ts:64-80 | the button switch shows the main menu exactly when the data is not `reminder`, `notes` or `decisions` |
| `Webhook.Handle` | app/api/telegram/route.ts:52-126 | Properties of the router, in the order of its branches: (1) A button press is never handed to a skill. (2) It is answered first, then one prompt chosen by its data is sent. (3) It fails exactly when the press carries no message, and then makes no call at all. (4) A text starting with `/start` shows the menu. (5) Otherwise, a reminder-shaped text goes to reminders, then a text with `?` goes to decisions, then any text or voice goes to notes. (6) Anything else does nothing and replies `ok`. (7) A hand-off carries the message unchanged. |
| `Webhook.MenuButtonsLeadToPrompts` | app/api/telegram/route.ts:39-80 | every button of the main menu leads to its own skill's prompt, and never back to the menu |
| `Webhook.VoiceOnlyGoesToNotes` | app/api/telegram/route.ts:115-121 | a voice message without text is always handed to notes |
| `Webhook.QuestionShapedReminder` | app/api/telegram/route.ts:97-112 | `09:30 call mum?` goes to reminders, not decisions: the reminder test runs first |
| `Webhook.StartPrefix` | app/api/telegram/route.ts:91-94 | `/start` is a prefix test, so `/startx` also shows the menu |
| `Pattern.Test` | app/api/telegram/route.ts:97 | a left-to-right scan returns true exactly when the text is in the pattern's language |
| `Pattern.Match` | app/api/telegram/reminders/route.ts:40 | Properties of `match`: (1) It finds a match exactly when the text is in the pattern's language. (2) The groups are the first two digit pairs. (3) Group 3 starts at the last place a backtracking matcher can start it. (4) Group 3 runs to the end of that line. |
| `Pattern.TaskShape` | app/api/telegram/reminders/route.ts:40 | group 3 is never empty and never holds a line terminator |
| `Pattern.TrimmedTaskStart` | app/api/telegram/reminders/route.ts:38-40 | on a text that does not end in white space, group 3 starts right after the white space that follows `HH:MM`, and does not start with white space |
| `Pattern.TrimmedTask` | app/api/telegram/reminders/route.ts:38-40 | on such a text, group 3 is the first line of what follows that white space |
| `Text.Trim` | app/api/telegram/reminders/route.ts:38 | the result is the input with white space removed at both ends, and it neither starts nor ends with white space |
| `Text.TrimOfTrimmed` | app/api/telegram/reminders/route.ts:38 | trimming a text that already has no white space at either end changes nothing |
| `Text.Decimal` | app/api/telegram/reminders/route.ts:69 | an integer renders with a minus sign exactly when it is negative, and otherwise as digits |
| `Text.DigitsRoundTrip` | app/api/telegram/reminders/route.ts:69-70 | the digits of a natural number read back as that number |
| `Reminders.TwoDigitValue` | app/api/telegram/reminders/route.ts:51-52 | `parseInt` of two digits is a number below 100, so the NaN tests can never succeed |
| `Reminders.ParseCommand` | app/api/telegram/reminders/route.ts:40-61 | Properties of the verdict on the trimmed text: (1) It is "invalid format" exactly when the text does not match. (2) It is "invalid time" exactly when the typed hour exceeds 23 or the minute exceeds 59. (3) Otherwise the hour and minute are the typed ones. (4) On a text that does not end in white space, which every non-empty trimmed text satisfies, the task is the first line after the white space. |
| `Clock.NextDue` | app/api/telegram/reminders/route.ts:64-67 | the due time is strictly after `now` and at most one day after it, and its local time of day is exactly HH:MM:00.000 |
| `Clock.NextDueReading` | app/api/telegram/reminders/route.ts:65 | the due time has the requested hour and minute, and zero seconds and milliseconds |
| `Clock.NextDueIsFirst` | app/api/telegram/reminders/route.ts:65-66 | no instant strictly between `now` and the due time shows HH:MM:00.000 |
| `Reminders.ReminderId` | app/api/telegram/reminders/route.ts:69 | an id starts with `r:` and is more than four characters long; which chat and clock reading it names is `Reminders.ReminderIdInjective` |
| `Reminders.ReminderIdInjective` | app/api/telegram/reminders/route.ts:69 | two ids are equal only for the same chat and the same clock reading |
| `Text.DecimalInjective` | app/api/telegram/reminders/route.ts:69 | different integers render as different texts |
| `Reminders.Member` | app/api/telegram/reminders/route.ts:70 | the stored member is JSON text that parses back to the record `{ id, chatId, task, dueMs }` |
| `Reminders.MemberReadsBack` | app/api/telegram/reminders/route.ts:69-70 | the stored member parses back to `{ id, chatId, task, dueMs }`, and each property reads as what was stored |
| `Reminders.Post` | app/api/telegram/reminders/route.ts:27-82 | Properties of the handler: (1) A body that is not JSON gets `Bad JSON`. (2) A non-matching text gets the HTML "invalid format" reply. (3) An out-of-range time gets "invalid time". (4) Neither of those stores anything, and both reply `ok: false` with no `error`. (5) A valid command sends the confirmation and replies `ok`, even without Redis. (6) With Redis, the member, which is the JSON text of the record `{ id, chatId, task, dueMs }` whose `id` is `r:<chat>:<stamp>`, gets the due time as its score and every other member's score is unchanged. |
| `Clock.FormatHHmm` | app/api/telegram/reminders/route.ts:79 | `HH:mm` is five characters, two digits, a colon and two digits, which read as the local hour and minute of the instant |
| `Reminders.Pad2OfTyped` | app/api/telegram/reminders/route.ts:79 | two typed digits format back as themselves |
| `Reminders.ConfirmationEchoesTypedTime` | app/api/telegram/reminders/route.ts:77-80 | the confirmation shows the due time exactly as the user typed it |
| `Reminders.TrimExamples` | app/api/telegram/reminders/route.ts:38 | trimming `09:00` followed by two spaces gives `09:00`, and trimming ` 09:00 x` gives `09:00 x` |
| `Reminders.ForwardedThenRefused` | app/api/telegram/reminders/route.ts:38-48 | `09:00` followed by two spaces is handed to reminders by the router, which tests the untrimmed text, and is then refused as "invalid format" |
| `Reminders.LeadingSpaceGoesToNotes` | app/api/telegram/route.ts:97-121 | ` 09:00 x` is sent to notes by the router, although the reminders handler would read it as 09:00 `x` |
| `SortedSet.Score` | app/api/telegram/reminders/route.ts:74 | a member has a score exactly when it is in the set, and the score is that of its entry |
| `SortedSet.Add` | app/api/telegram/reminders/route.ts:74 | ZADD keeps the set well formed; afterwards the member has exactly the new entry and every other entry stays |
| `SortedSet.AddSetsScore` | app/api/telegram/reminders/route.ts:73-74 | after ZADD the member's score is the given one, and every other member's score is unchanged |
| `SortedSet.Remove` | app/api/telegram/cron/route.ts:41 | ZREM drops exactly the member's entry, keeps the set well formed, and changes nothing for a non-member |
| `SortedSet.RankRange` | app/api/telegram/cron/route.ts:20 | an index range returns no more members than the set holds, and only members of the set |
| `SortedSet.ScoreRange` | app/api/telegram/cron/route.ts:20 | a by-score range returns no more members than the set holds, and only members of the set; in a well-formed set it returns each member once, in ascending order of score and then member |
| `SortedSet.ScoreRangeExact` | app/api/telegram/cron/route.ts:20 | a by-score range returns a member exactly when its score lies within the bounds |
| `SortedSet.RankRangeTakesAll` | app/api/telegram/cron/route.ts:20 | an index range from 0 to a stop past the end returns every member, whatever its score |
| `Json.Serialise` | app/api/telegram/reminders/route.ts:70 | `JSON.stringify` never gives the empty text; what it gives parses back to the value (`Json.RoundTrip`) |
| `Json.Parse` | lib/redis.ts:21 | `JSON.parse` throws on the empty text and on text that is only white space; it reads back what `JSON.stringify` wrote (`Json.RoundTrip`) |
| `Json.SurrogatePairEscape` | lib/redis.ts:21 | for every character outside the Basic Multilingual Plane, the `\u` escapes of its UTF-16 high and low halves read back as that character |
| `Json.LoneSurrogateEscape` | lib/redis.ts:21 | a `\u` escape of a low surrogate is refused; one of a high surrogate is refused exactly when no low-surrogate escape follows it |
| `Json.SurrogatePairExample` | lib/redis.ts:21 | `JSON.parse` of `"\ud83d\ude00"` is the string holding U+1F600 |
| `Json.RoundTrip` | app/api/telegram/reminders/route.ts:70 | `JSON.parse(JSON.stringify(v))` is `v` |
| `Json.LastField` | app/api/telegram/cron/route.ts:37 | a property read finds a value exactly when some field has the key, and then it is the last such field |
| `Json.LookupUnique` | app/api/telegram/cron/route.ts:37 | when exactly one field has the key, a property read gives that field's value |
| `Cron.Deliveries` | app/api/telegram/cron/route.ts:25-45 | the reference definition of a sweep's deliveries: a reminder message goes out for a fetched member exactly when the member is readable and Telegram accepted the message, and never more messages than members fetched; their exact number and order are `Cron.DeliveriesEnumerate` |
| `Cron.Successes` | app/api/telegram/cron/route.ts:25-38 | the positions of the fetched members whose message went through: strictly increasing, and listing a position exactly when its member is readable and Telegram accepted it |
| `Cron.DeliveriesEnumerate` | app/api/telegram/cron/route.ts:25-38 | the deliveries are, one for one and in fetch order, the messages for those positions, so there are exactly as many |
| `Cron.NoticeFor` | app/api/telegram/cron/route.ts:37 | the message for a member belongs to that member and its text starts with `⏰ Reminder: ` |
| `Cron.RenderValue` | app/api/telegram/cron/route.ts:37 | a template renders a string property as its text and a number as a numeral that parses back to the number; it throws on an object exactly when the object has its own `toString` key, and an array renders as its items joined |
| `Cron.RenderArrayThrows` | app/api/telegram/cron/route.ts:37 | rendering an array throws exactly when rendering one of its items throws |
| `Cron.RenderItems` | app/api/telegram/cron/route.ts:37 | joining an array's items throws exactly when rendering one of them throws |
| `Cron.SweepFrom` | app/api/telegram/cron/route.ts:25-45 | Properties of the loop: (1) Its messages are exactly the reference deliveries. (2) `sent` counts them, which is the number of members whose message went through (`Cron.DeliveriesEnumerate`), and never exceeds the number fetched. (3) The set stays well formed. (4) An entry disappears exactly when some fetched copy of it was delivered and then removed. |
| `Cron.Run` | app/api/telegram/cron/route.ts:14-48 | Properties of one run: (1) Without Redis the reply is `No Redis` and nothing is sent. (2) An empty fetch replies `sent: 0` and changes nothing. (3) Otherwise `sent` is the number of fetched members whose message went through, and the messages are theirs, in fetch order. (4) An entry stays exactly when no fetched copy of it was both delivered and removed. (5) A well-formed set stays well formed. |
| `Cron.Get` | app/api/telegram/cron/route.ts:14-48 | The sweep fetching by due time: (1) Without Redis it replies `No Redis`. (2) Otherwise it replies `sent` equal to the number of messages sent, at most the number fetched. (3) That number is the count of fetched members whose message went through. (4) The set stays well formed. (5) An empty fetch changes nothing. |
| `Cron.GetSweeps` | app/api/telegram/cron/route.ts:14-48 | with Redis, the reply, the set afterwards and the messages are exactly those of the loop over the members fetched by due time |
| `Cron.GetAsWritten` | app/api/telegram/cron/route.ts:14-48 | over the index-range fetch the code performs: (1) Without Redis it replies `No Redis`. (2) Otherwise it replies `sent` equal to the number of messages sent, at most the number fetched. (3) That number is the count of fetched members whose message went through. (4) The set stays well formed. |
| `Cron.SentCountsDeliveries` | app/api/telegram/cron/route.ts:23-47 | `sent` is exactly the number of fetched members whose message went through, and the sweep's messages are theirs, one each, in fetch order; a failure on one member does not stop later ones |
| `Cron.FailedSendStays` | app/api/telegram/cron/route.ts:36-44 | a member whose send failed stays in the set for the next sweep |
| `Cron.UnreadableStays` | app/api/telegram/cron/route.ts:29-44 | a member that is not JSON, is `null`, or whose task throws when rendered is never removed and is retried on every sweep |
| `Cron.OwnToStringTaskStays` | app/api/telegram/cron/route.ts:37-44 | the member `{"id":"r:1:1","chatId":1,"task":{"toString":0},"dueMs":0}` parses, but its template throws, so a sweep where Telegram and Redis would cooperate sends nothing, counts nothing and keeps it |
| `Cron.AtLeastOnce` | app/api/telegram/cron/route.ts:37-43 | a member delivered but not removed is counted as sent and is still stored, so it can be delivered again |
| `Cron.UnfetchedUntouched` | app/api/telegram/cron/route.ts:20-41 | members that were not fetched are left in the set |
| `Cron.ReminderNotice` | app/api/telegram/cron/route.ts:29-37 | a member written by the reminders handler reaches its chat as `⏰ Reminder: <task>` |
| `Cron.NeverEarly` | app/api/telegram/cron/route.ts:20 | fetching by due time sends only reminders whose due time has come |
| `Cron.DueReminderDelivered` | app/api/telegram/cron/route.ts:20-41 | a reminder that has come due is sent to its chat, and then removed, when Telegram and Redis cooperate |
| `Cron.DeliveredAndRemoved` | app/api/telegram/cron/route.ts:37-41 | a fetched member that was delivered and then removed is among the sweep's messages and is gone afterwards |
| `Cron.AsWrittenFetchesAll` | app/api/telegram/cron/route.ts:20 | with `now` a millisecond clock, `zrange(key, 0, now)` returns every stored member |
| `Cron.AsWrittenSendsEarly` | app/api/telegram/cron/route.ts:20 | as written, a reminder due only in the future is sent now and removed |
| `Cron.FixedWaits` | app/api/telegram/cron/route.ts:20-21 | fetching by due time leaves that same reminder stored and replies `sent: 0` |
| `Notes.Append` | app/api/telegram/notes/route.ts:83-90 | Properties of an append: (1) It creates the chat's list when the chat has none. (2) It adds exactly one note, at the end. (3) It keeps the earlier notes. (4) It leaves every other chat alone. |
| `Notes.SettleCompleted` | app/api/telegram/notes/route.ts:44-52 | the polls yield a text exactly when some poll completes after only pending ones |
| `Notes.SettleTimesOut` | app/api/telegram/notes/route.ts:44-61 | polls that are all pending yield nothing |
| `Notes.OnlyFirstPollsCount` | app/api/telegram/notes/route.ts:44 | polls past the thirtieth are never made, so they cannot change the outcome |
| `Notes.Transcribe` | app/api/telegram/notes/route.ts:44-61 | the polling loop returns what the first of at most 30 polls that settles gives |
| `Notes.Post` | app/api/telegram/notes/route.ts:68-119 | Properties of the handler: (1) An unreadable body replies `Internal error`. (2) A voice message takes the voice branch even if it also has text. (3) The voice branch announces the transcription, then either saves a non-empty transcript as a voice note or says it failed, leaving the log unchanged. (4) A text message saves one text note. (5) Anything else replies `ok: false`. (6) The log grows by at most one note, in the sender's chat, and only on success. |
| `Notes.HistoryPreserved` | app/api/telegram/notes/route.ts:82-108 | over any run of requests, each with its own body (readable or not), transcript and save time, notes already saved are never changed, in any chat |
| `Kv.Encode` | lib/redis.ts:33-34 | a string is written as it is; any other value is written as JSON text that parses back to it |
| `Kv.KvSet` | lib/redis.ts:30-41 | Properties of `kvSet`: (1) It does nothing without Redis. (2) It writes the encoded value. (3) It sets an expiry exactly when the TTL is truthy. (4) It leaves every other key alone. |
| `Kv.KvGet` | lib/redis.ts:15-25 | Properties of `kvGet`: (1) It gives `null` without Redis, for a missing key, for an empty text, and for text that is not JSON. (2) For a non-empty stored text that is JSON, it gives the parse of that text. (3) Any other value it returns is the parse of the stored text. |
| `Kv.NonStringRoundTrip` | lib/redis.ts:21-34 | any value other than a string reads back as written, whatever the TTL |
| `Kv.StringReadsAsItsText` | lib/redis.ts:21-34 | a string is stored verbatim and so reads back as whatever JSON its text spells, or `null` |
| `Kv.PreSerialisedString` | lib/redis.ts:33-34 | writing a value's JSON text as a string reads back as the value |
| `Kv.HelloReadsNull` | lib/redis.ts:20-24 | the plain string `hello` reads back as `null` |
| `Kv.EmptyStringReadsNull` | lib/redis.ts:18 | the empty string reads back as `null` |
| `Kv.SetIsolated` | lib/redis.ts:36-40 | a write under one key leaves what every other key reads unchanged |

## Where the code and the design description disagree

Where they disagree, the model follows the code.
- The design asks the webhook to acknowledge every update with success. The code catches nothing. A button press whose `callback_query` has no `message` throws when it reads the chat. It does so before the callback is answered, so no call is made and the request fails (`Webhook.Handle`, the `Fault` action).
- The design describes a per-chat mode set by button presses. The code keeps none: a button press only sends a prompt.
- The design says a reminder is never delivered before its due time. The code's fetch is an index range, and it sends reminders early (see Findings).

## Left out

- Transport failures: every Bot API call and axios hand-off in the router, the reminders handler and the notes handler is taken to succeed. In the router and the reminders handler such a failure is uncaught and the request fails; in the notes handler it is caught and replies `Internal error`. The sweep does model per-member delivery and removal failures, as the code catches them there. Transcription failures are modelled too: a failed submit, a failed poll and an `error` status all give no transcript (`Notes.Transcribe`).
- Webhook bodies that are not updates: `Webhook.Handle` takes an already decoded update. In the code, a body that is not JSON (app/api/telegram/route.ts:53) or is JSON `null` (route.ts:56) throws uncaught, and the request fails.
- Reminders bodies without a message: `Reminders.Post` takes either no body (not JSON, `Bad JSON`) or a message. In the code, a JSON body without `msg`, or whose `msg` has no `chat`, throws uncaught at app/api/telegram/reminders/route.ts:36-37, and the request fails.
- `getFile` in the notes handler is taken to succeed, and the file URL it yields is not modelled.
- Time zones other than fixed offsets: luxon's zone rules, including daylight-saving gaps and overlaps, are not modelled. The default zone, Asia/Singapore, is a fixed UTC+8, so the model is exact for it.
- `Date.now()`, `DateTime.now()` and `new Date().toISOString()` are inputs (`now`, `stamp`, `at`). The two clock readings of the reminders handler are separate parameters because the code reads the clock twice.
- The 3-second waits between polls are left out: they change timing only.
- JSON numbers are integers and are kept exact. Fractions, exponents, and JavaScript's exponential rendering of integers from 10^21 upward are not modelled. Nor is the rounding of integers beyond 2^53 to the nearest double: `JSON.parse` reads `9007199254740993` as `9007199254740992`, where `Json.ParseNumber`, and so `Kv.KvGet`, `Cron.Readable` and `Cron.RenderValue`, keep the exact integer. Every number the handlers themselves write is a millisecond time or a chat id, well below 2^53; text written by anything else can differ.
- Strings are sequences of Unicode scalar values, so lone surrogates, which `JSON.stringify` escapes, do not arise when writing.
- `Json.ParseEscape`: a `\u` escape of a lone surrogate is refused, because a string holds whole code points, where `JSON.parse` accepts it. So `Kv.KvGet` reads such text as `null`, and `Cron.Readable` treats such a member as unreadable. A surrogate pair decodes to its code point, as in `JSON.parse`.
- The Upstash client's automatic deserialisation of values it reads is not modelled. `kvGet` (lib/redis.ts:17) and the sweep's loop (`Cron.Readable`, app/api/telegram/cron/route.ts:28-29) see the raw stored text, as their own `JSON.parse` calls assume.
- Redis command failures outside the sweep's `try`: they are taken to succeed. In the code, a failing `zadd` (app/api/telegram/reminders/route.ts:74) is not caught, so the request fails before the confirmation; a failing `zrange` (app/api/telegram/cron/route.ts:20) is outside the loop's `try`, so the sweep fails; a failing `get` or `set` (lib/redis.ts:17, 37-39) makes `kvGet` or `kvSet` throw.
- Redis expiry: a TTL is recorded with the value, but keys do not expire in the model.
- `Cron.GetAsWritten`: states the reply's count and the set's well-formedness, but not which entries remain. Its early sends and removals are stated by `Cron.AsWrittenSendsEarly` and `Cron.AsWrittenFetchesAll`.
- The decisions skill (`app/api/telegram/decisions/route.ts`) only passes the message to a language-model service; it is not part of this model. The router's hand-off to it is modelled.
- `app/api/telegram/telegram.ts` (a Bot API client singleton) is not part of this model.
- Missing environment variables throw when a module loads, not per request. They are left out.
- Concurrency: overlapping sweeps and interleaved requests racing on the note log are left out. Each request and each sweep is modelled as one sequential step.
- The note log lives in process memory and is lost on restart; the model keeps it as a value passed from request to request.

## Findings

| source | as written | input that shows it | evidently intended | confidence | as-written member | corrected member |
|---|---|---|---|---|---|---|
| app/api/telegram/cron/route.ts:20 | `redis.zrange("tg:reminders", 0, now)` without a by-score option is an index range, from rank 0 to rank `now`, so with a millisecond clock it returns every stored member | a set holding one reminder due at `now + 1`, swept at any `now >= 1`: it is sent and removed at once | fetch by score, members with due time in `[0, now]`, as the comment on line 19 says | not executed | `Cron.AsWrittenSendsEarly` | `Cron.NeverEarly` |

=== FILE: clock.dfy ===
/**
  Wall-clock arithmetic for reminders. Instants are integer milliseconds since
  the Unix epoch; a zone is a fixed offset from UTC in milliseconds, so every
  local day lasts exactly 24 hours.
 */
module Clock {
  import opened Text

  const SecondMs: int := 1000
  const MinuteMs: int := 60 * SecondMs
  const HourMs: int := 60 * MinuteMs
  const DayMs: int := 24 * HourMs

  /** The default zone of the reminders handler, Asia/Singapore: UTC+8 all year round. */
  const SingaporeOffsetMs: int := 8 * HourMs

  /** Milliseconds since local midnight at instant `t`. */
  function TimeOfDay(t: int, offset: int): (r: int)
    ensures 0 <= r < DayMs
  {
    (t + offset) % DayMs
  }

  function LocalHour(t: int, offset: int): (h: int)
    ensures 0 <= h < 24
  {
    TimeOfDay(t, offset) / HourMs
  }

  function LocalMinute(t: int, offset: int): (m: int)
    ensures 0 <= m < 60
  {
    TimeOfDay(t, offset) % HourMs / MinuteMs
  }

  /** The seconds and milliseconds of the local time, together, in milliseconds. */
  function LocalSubMinute(t: int, offset: int): (r: int)
    ensures 0 <= r < MinuteMs
  {
    TimeOfDay(t, offset) % MinuteMs
  }

  /** The clock reading HH:MM:00.000, as milliseconds since midnight. */
  function Reading(hour: nat, minute: nat): (r: int)
    requires hour < 24 && minute < 60
    ensures 0 <= r < DayMs
  {
    hour * HourMs + minute * MinuteMs
  }

  lemma ReadingFields(hour: nat, minute: nat)
    requires hour < 24 && minute < 60
    ensures Reading(hour, minute) / HourMs == hour
    ensures Reading(hour, minute) % HourMs / MinuteMs == minute
    ensures Reading(hour, minute) % MinuteMs == 0
  {
  }

  /**
    The next instant after `now` whose local reading is `hour:minute:00.000`:
    today at that reading when that is still ahead of `now`, otherwise one day
    later.
   */
  function NextDue(now: int, offset: int, hour: nat, minute: nat): (due: int)
    requires hour < 24 && minute < 60
    ensures now < due <= now + DayMs
    ensures TimeOfDay(due, offset) == Reading(hour, minute)
  {
    var local := now + offset;
    var midnight := local / DayMs * DayMs;
    var today := midnight + Reading(hour, minute) - offset;
    if today <= now then today + DayMs else today
  }

  /** The due time has the requested hour and minute and zero seconds and milliseconds. */
  lemma NextDueReading(now: int, offset: int, hour: nat, minute: nat)
    requires hour < 24 && minute < 60
    ensures var due := NextDue(now, offset, hour, minute);
            && LocalHour(due, offset) == hour
            && LocalMinute(due, offset) == minute
            && LocalSubMinute(due, offset) == 0
  {
    ReadingFields(hour, minute);
  }

  /** Two instants with the same local reading lie a whole number of days apart. */
  lemma SameReadingWholeDays(t: int, u: int, offset: int)
    requires TimeOfDay(t, offset) == TimeOfDay(u, offset)
    ensures (u - t) % DayMs == 0
  {
    var q1 := (t + offset) / DayMs;
    var q2 := (u + offset) / DayMs;
    assert u - t == (q2 - q1) * DayMs;
  }

  /** No instant strictly between `now` and the due time has the requested reading. */
  lemma NextDueIsFirst(now: int, offset: int, hour: nat, minute: nat, t: int)
    requires hour < 24 && minute < 60
    requires now < t < NextDue(now, offset, hour, minute)
    ensures TimeOfDay(t, offset) != Reading(hour, minute)
  {
    var due := NextDue(now, offset, hour, minute);
    assert 0 < due - t < DayMs;
    if TimeOfDay(t, offset) == Reading(hour, minute) {
      SameReadingWholeDays(t, due, offset);
    }
  }

  /** Two decimal digits, zero-padded. */
  function Pad2(n: int): (s: string)
    requires 0 <= n < 100
    ensures |s| == 2 && AllDigits(s)
    ensures 10 * DigitValue(s[0]) + DigitValue(s[1]) == n
  {
    [DigitChar(n / 10), DigitChar(n % 10)]
  }

  /** The luxon format `HH:mm` of instant `t` in the zone: the local hour and minute, two digits each. */
  function FormatHHmm(t: int, offset: int): (s: string)
    ensures |s| == 5 && s[2] == ':'
    ensures IsDigit(s[0]) && IsDigit(s[1]) && IsDigit(s[3]) && IsDigit(s[4])
    ensures 10 * DigitValue(s[0]) + DigitValue(s[1]) == LocalHour(t, offset)
    ensures 10 * DigitValue(s[3]) + DigitValue(s[4]) == LocalMinute(t, offset)
  {
    var hh, mm := Pad2(LocalHour(t, offset)), Pad2(LocalMinute(t, offset));
    var s := hh + ":" + mm;
    assert s[0] == hh[0] && s[1] == hh[1] && s[3] == mm[0] && s[4] == mm[1];
    s
  }
}

=== FILE: cron.dfy ===
/**
  The reminder sweep: fetch members of `tg:reminders`, and for each one read
  it as JSON, send `⏰ Reminder: <task>` to its chat, count it, and remove it.
  Any failure on one member is logged and the loop goes on. Telegram and
  Redis are outcome oracles, one `Attempt` per fetched member.
 */
module Cron {
  import opened Text
  import opened Json
  import opened SortedSet
  import Reminders

  /** What the outside world did with one member: Telegram accepted the message; ZREM went through. */
  datatype Attempt = Attempt(delivered: bool, removed: bool)

  /** A reminder message Telegram accepted: the member behind it, the `chatId` it went to, and its text. */
  datatype Notice = Notice(member: string, chat: Option<Json>, text: string)

  /**
    `String(v)` in a template literal; `None` is `undefined`. The result is
    `None` where the conversion throws.
   */
  function Render(v: Option<Json>): (r: Option<string>)
    ensures v.None? ==> r == Some("undefined")
    ensures v.Some? ==> r == RenderValue(v.value)
  {
    match v
    case None => Some("undefined")
    case Some(j) => RenderValue(j)
  }

  /**
    `String(j)` for a parsed value, `None` where it throws. An object is
    `[object Object]` unless it has its own `toString` property: a parsed value
    is never callable, so the conversion falls through to `valueOf`, which
    gives back the object itself, and that is a `TypeError`. An array joins
    its items, so such an object anywhere inside it throws as well.
   */
  function RenderValue(j: Json): (r: Option<string>)
    ensures j.JStr? ==> r == Some(j.s)
    ensures j.JNum? ==> r.Some? && Parse(r.value) == Some(j)
    ensures j.JObj? ==> (r.None? <==> Lookup(j, "toString").Some?)
    ensures j.JArr? ==> r == RenderItems(j.items)
    decreases j
  {
    if j.JNull? then Some("null")
    else if j.JBool? then Some(if j.b then "true" else "false")
    else if j.JNum? then
      RoundTrip(j);
      Some(Decimal(j.n))
    else if j.JStr? then Some(j.s)
    else if j.JArr? then RenderItems(j.items)
    else if Lookup(j, "toString").Some? then None
    else Some("[object Object]")
  }

  /** `Array.prototype.join(",")`, where `null` items print as nothing; it throws where an item does. */
  function RenderItems(items: seq<Json>): (r: Option<string>)
    ensures r.None? <==> exists i :: 0 <= i < |items| && RenderValue(items[i]).None?
    decreases items
  {
    if |items| == 0 then Some("")
    else
      var head := if items[0].JNull? then Some("") else RenderValue(items[0]);
      if head.None? then None
      else if |items| == 1 then head
      else
        var tail := RenderItems(items[1..]);
        assert forall i :: 1 <= i < |items| ==> items[1..][i - 1] == items[i];
        if tail.None? then None else Some(head.value + "," + tail.value)
  }

  /** An array throws exactly when one of its items does. */
  lemma RenderArrayThrows(items: seq<Json>)
    ensures RenderValue(JArr(items)).None? <==> exists i :: 0 <= i < |items| && RenderValue(items[i]).None?
  {
    assert RenderValue(JArr(items)) == RenderItems(items);
  }

  /**
    The value whose properties the loop reads: `JSON.parse` must succeed, and
    the result must not be `null`, since reading a property of `null` throws.
   */
  function Readable(member: string): (r: Option<Json>)
    ensures r.Some? <==> Parse(member).Some? && Parse(member) != Some(JNull)
    ensures r.Some? ==> Parse(member) == r
  {
    match Parse(member)
    case None => None
    case Some(v) => if v == JNull then None else Some(v)
  }

  /** The loop reaches the send: the member is readable, and its task renders without throwing. */
  predicate Sendable(member: string) {
    Readable(member).Some? && Render(Lookup(Readable(member).value, "task")).Some?
  }

  /** The message for a sendable member: `⏰ Reminder: ` and its task, to its `chatId`. */
  function NoticeFor(member: string): (n: Notice)
    requires Sendable(member)
    ensures n.member == member && StartsWith(n.text, "\U{23F0} Reminder: ")
  {
    var v := Readable(member).value;
    Notice(member, Lookup(v, "chatId"), "\U{23F0} Reminder: " + Render(Lookup(v, "task")).value)
  }

  /** The send for this member was made and accepted. */
  predicate Succeeds(member: string, a: Attempt) {
    Sendable(member) && a.delivered
  }

  /** The messages a sweep gets through, in fetch order: the reference the loop is held to. */
  function Deliveries(fetched: seq<string>, outcomes: seq<Attempt>): (ns: seq<Notice>)
    requires |outcomes| == |fetched|
    ensures |ns| <= |fetched|
    ensures forall n :: n in ns ==>
      exists i :: 0 <= i < |fetched| && Succeeds(fetched[i], outcomes[i]) && n == NoticeFor(fetched[i])
    ensures forall i :: 0 <= i < |fetched| && Succeeds(fetched[i], outcomes[i]) ==> NoticeFor(fetched[i]) in ns
    decreases |fetched|
  {
    if |fetched| == 0 then []
    else
      var rest := Deliveries(fetched[1..], outcomes[1..]);
      assert forall i :: 1 <= i < |fetched| ==> fetched[1..][i - 1] == fetched[i] && outcomes[1..][i - 1] == outcomes[i];
      if Succeeds(fetched[0], outcomes[0]) then [NoticeFor(fetched[0])] + rest else rest
  }

  /**
    The indices from `lo` on whose message went through, in increasing order:
    the reference for how many messages a sweep sends, and in what order.
   */
  function Successes(fetched: seq<string>, outcomes: seq<Attempt>, lo: nat): (idx: seq<nat>)
    requires |outcomes| == |fetched| && lo <= |fetched|
    ensures forall k :: 0 <= k < |idx| ==> lo <= idx[k] < |fetched| && Succeeds(fetched[idx[k]], outcomes[idx[k]])
    ensures forall k, l :: 0 <= k < l < |idx| ==> idx[k] < idx[l]
    ensures forall i :: lo <= i < |fetched| ==> (i in idx <==> Succeeds(fetched[i], outcomes[i]))
    decreases |fetched| - lo
  {
    if lo == |fetched| then []
    else
      var rest := Successes(fetched, outcomes, lo + 1);
      if Succeeds(fetched[lo], outcomes[lo]) then [lo] + rest else rest
  }

  /** `ns` lists the messages for the members of `fetched` at the positions `idx`, one each, in order. */
  ghost predicate ListsNotices(ns: seq<Notice>, fetched: seq<string>, idx: seq<nat>) {
    && |ns| == |idx|
    && forall k :: 0 <= k < |idx| ==> idx[k] < |fetched| && Sendable(fetched[idx[k]]) && ns[k] == NoticeFor(fetched[idx[k]])
  }

  /** Putting one more message in front of a listing, with its position in front of the positions. */
  lemma ListsNoticesCons(ns: seq<Notice>, fetched: seq<string>, idx: seq<nat>, lo: nat)
    requires ListsNotices(ns, fetched, idx)
    requires lo < |fetched| && Sendable(fetched[lo])
    ensures ListsNotices([NoticeFor(fetched[lo])] + ns, fetched, [lo] + idx)
  {
    var ns', idx' := [NoticeFor(fetched[lo])] + ns, [lo] + idx;
    forall k | 0 < k < |idx'|
      ensures idx'[k] < |fetched| && Sendable(fetched[idx'[k]]) && ns'[k] == NoticeFor(fetched[idx'[k]])
    {
      assert ns'[k] == ns[k - 1] && idx'[k] == idx[k - 1];
    }
  }

  /** The deliveries are the successful members' messages, one each, in fetch order. */
  lemma {:induction false} DeliveriesEnumerate(fetched: seq<string>, outcomes: seq<Attempt>, lo: nat)
    requires |outcomes| == |fetched| && lo <= |fetched|
    ensures var ns := Deliveries(fetched[lo..], outcomes[lo..]);
      var idx := Successes(fetched, outcomes, lo);
      |ns| == |idx| && forall k :: 0 <= k < |idx| ==> ns[k] == NoticeFor(fetched[idx[k]])
    decreases |fetched| - lo
  {
    assert ListsNotices(Deliveries(fetched[lo..], outcomes[lo..]), fetched, Successes(fetched, outcomes, lo)) by {
      ListsNoticesFrom(fetched, outcomes, lo);
    }
  }

  lemma {:induction false} ListsNoticesFrom(fetched: seq<string>, outcomes: seq<Attempt>, lo: nat)
    requires |outcomes| == |fetched| && lo <= |fetched|
    ensures ListsNotices(Deliveries(fetched[lo..], outcomes[lo..]), fetched, Successes(fetched, outcomes, lo))
    decreases |fetched| - lo
  {
    hide NoticeFor, Parse, Render, RenderValue, RenderItems, Readable, Sendable, Lookup;
    if lo < |fetched| {
      var f, o := fetched[lo..], outcomes[lo..];
      var rest := Deliveries(fetched[lo + 1..], outcomes[lo + 1..]);
      var idx := Successes(fetched, outcomes, lo + 1);
      assert f[1..] == fetched[lo + 1..] && o[1..] == outcomes[lo + 1..];
      assert f[0] == fetched[lo] && o[0] == outcomes[lo];
      ListsNoticesFrom(fetched, outcomes, lo + 1);
      if Succeeds(fetched[lo], outcomes[lo]) {
        assert Deliveries(f, o) == [NoticeFor(fetched[lo])] + rest;
        assert Successes(fetched, outcomes, lo) == [lo] + idx;
        hide Deliveries, Successes, ListsNotices;
        ListsNoticesCons(rest, fetched, idx, lo);
      } else {
        assert Deliveries(f, o) == rest;
        assert Successes(fetched, outcomes, lo) == idx;
      }
    }
  }

  /** Some fetched occurrence of `m` was delivered and then removed. */
  ghost predicate Cleared(m: string, fetched: seq<string>, outcomes: seq<Attempt>)
    requires |outcomes| == |fetched|
  {
    exists i :: 0 <= i < |fetched| && fetched[i] == m && Succeeds(fetched[i], outcomes[i]) && outcomes[i].removed
  }

  lemma ClearedCons(m: string, fetched: seq<string>, outcomes: seq<Attempt>)
    requires |outcomes| == |fetched| > 0
    ensures Cleared(m, fetched, outcomes) <==>
      (fetched[0] == m && Succeeds(fetched[0], outcomes[0]) && outcomes[0].removed)
      || Cleared(m, fetched[1..], outcomes[1..])
  {
    if Cleared(m, fetched, outcomes) {
      var i :| 0 <= i < |fetched| && fetched[i] == m && Succeeds(fetched[i], outcomes[i]) && outcomes[i].removed;
      if i > 0 {
        assert fetched[1..][i - 1] == fetched[i] && outcomes[1..][i - 1] == outcomes[i];
      }
    }
    if Cleared(m, fetched[1..], outcomes[1..]) {
      var i :| 0 <= i < |fetched| - 1 && fetched[1..][i] == m && Succeeds(fetched[1..][i], outcomes[1..][i])
                && outcomes[1..][i].removed;
      assert fetched[i + 1] == m;
    }
  }

  datatype Sweep = Sweep(reminders: seq<Entry>, sent: nat, notices: seq<Notice>)

  /** The `for … of` loop with its `try`/`catch`, over the fetched members. */
  function SweepFrom(z: seq<Entry>, fetched: seq<string>, outcomes: seq<Attempt>): (r: Sweep)
    requires |outcomes| == |fetched|
    ensures r.notices == Deliveries(fetched, outcomes)
    ensures r.sent == |r.notices| <= |fetched|
    ensures Valid(z) ==> Valid(r.reminders)
    // An entry is gone exactly when some fetched copy of it was delivered and then removed.
    ensures forall e :: e in r.reminders <==> e in z && !Cleared(e.member, fetched, outcomes)
    decreases |fetched|
  {
    if |fetched| == 0 then Sweep(z, 0, [])
    else
      var m := fetched[0];
      var z' := if Succeeds(m, outcomes[0]) && outcomes[0].removed then Remove(z, m) else z;
      var rest := SweepFrom(z', fetched[1..], outcomes[1..]);
      assert forall e :: e in rest.reminders <==> e in z && !Cleared(e.member, fetched, outcomes) by {
        forall e ensures e in rest.reminders <==> e in z && !Cleared(e.member, fetched, outcomes) {
          ClearedCons(e.member, fetched, outcomes);
        }
      }
      if Succeeds(m, outcomes[0]) then Sweep(rest.reminders, rest.sent + 1, [NoticeFor(m)] + rest.notices)
      else rest
  }

  /** The JSON reply: `{ ok: false, error: "No Redis" }` or `{ ok: true, sent }`. */
  datatype Reply = NoRedis | Sent(count: nat)

  datatype Result = Result(reply: Reply, reminders: Option<seq<Entry>>, notices: seq<Notice>)

  /** One run of the handler over whatever the store returned. */
  function Run(reminders: Option<seq<Entry>>, fetched: seq<string>, outcomes: seq<Attempt>): (r: Result)
    requires |outcomes| == |fetched|
    ensures reminders.None? ==> r == Result(NoRedis, None, [])
    ensures reminders.Some? && |fetched| == 0 ==> r == Result(Sent(0), reminders, [])
    // `sent` is the number of members whose message went through; the messages are theirs, in fetch order.
    ensures reminders.Some? ==>
      var idx := Successes(fetched, outcomes, 0);
      && r.reply == Sent(|idx|) && |r.notices| == |idx|
      && forall k :: 0 <= k < |idx| ==> r.notices[k] == NoticeFor(fetched[idx[k]])
    // An entry is kept exactly when no fetched copy of it was both delivered and removed.
    ensures reminders.Some? ==>
      && r.reminders.Some?
      && (Valid(reminders.value) ==> Valid(r.reminders.value))
      && forall e :: e in r.reminders.value <==> e in reminders.value && !Cleared(e.member, fetched, outcomes)
  {
    if reminders.None? then Result(NoRedis, None, [])
    else
      var z := reminders.value;
      SentCountsDeliveries(z, fetched, outcomes);
      if |fetched| == 0 then Result(Sent(0), reminders, [])
      else
        var s := SweepFrom(z, fetched, outcomes);
        Result(Sent(s.sent), Some(s.reminders), s.notices)
  }

  /** The fetch the handler intends: every member whose due time has come. */
  function Fetch(z: seq<Entry>, now: int): seq<string> {
    ScoreRange(z, 0, now)
  }

  /** The fetch as written: `zrange(key, 0, now)` with no by-score option is an index range. */
  function FetchAsWritten(z: seq<Entry>, now: int): seq<string> {
    RankRange(z, 0, now)
  }

  /** `GET` of the sweep, fetching by due time. */
  function Get(reminders: Option<seq<Entry>>, now: int, outcomes: seq<Attempt>): (r: Result)
    requires reminders.Some? ==> Valid(reminders.value) && |outcomes| == |Fetch(reminders.value, now)|
    ensures reminders.None? ==> r == Result(NoRedis, None, [])
    ensures reminders.Some? ==> r.reply.Sent? && r.reminders.Some? && Valid(r.reminders.value)
    ensures reminders.Some? ==> r.reply.count == |r.notices| <= |Fetch(reminders.value, now)|
    ensures reminders.Some? ==> r.reply == Sent(|Successes(Fetch(reminders.value, now), outcomes, 0)|)
    ensures reminders.Some? && Fetch(reminders.value, now) == [] ==> r == Result(Sent(0), reminders, [])
  {
    if reminders.None? then Run(None, [], [])
    else Run(reminders, Fetch(reminders.value, now), outcomes)
  }

  /** `GET` of the sweep as written. */
  function GetAsWritten(reminders: Option<seq<Entry>>, now: int, outcomes: seq<Attempt>): (r: Result)
    requires reminders.Some? ==> Valid(reminders.value) && |outcomes| == |FetchAsWritten(reminders.value, now)|
    ensures reminders.None? ==> r == Result(NoRedis, None, [])
    ensures reminders.Some? ==> r.reply.Sent? && r.reminders.Some? && Valid(r.reminders.value)
    ensures reminders.Some? ==> r.reply.count == |r.notices| <= |FetchAsWritten(reminders.value, now)|
    ensures reminders.Some? ==> r.reply == Sent(|Successes(FetchAsWritten(reminders.value, now), outcomes, 0)|)
  {
    if reminders.None? then Run(None, [], [])
    else Run(reminders, FetchAsWritten(reminders.value, now), outcomes)
  }

  // ---------------------------------------------------------------------------
  // Properties of one sweep
  // ---------------------------------------------------------------------------

  /**
    `sent` is the number of fetched members whose message went through, the
    messages are theirs in fetch order, and a failure never stops the members after it.
   */
  lemma SentCountsDeliveries(z: seq<Entry>, fetched: seq<string>, outcomes: seq<Attempt>)
    requires |outcomes| == |fetched|
    ensures var s := SweepFrom(z, fetched, outcomes);
      var idx := Successes(fetched, outcomes, 0);
      && s.sent == |idx| && |s.notices| == |idx|
      && forall k :: 0 <= k < |idx| ==> s.notices[k] == NoticeFor(fetched[idx[k]])
    ensures forall i :: 0 <= i < |fetched| && Succeeds(fetched[i], outcomes[i]) ==>
      NoticeFor(fetched[i]) in SweepFrom(z, fetched, outcomes).notices
  {
    DeliveriesEnumerate(fetched, outcomes, 0);
    assert fetched[0..] == fetched && outcomes[0..] == outcomes;
  }

  /** A member whose send failed stays for the next sweep, unless another fetched copy of it got through. */
  lemma FailedSendStays(z: seq<Entry>, fetched: seq<string>, outcomes: seq<Attempt>, e: Entry)
    requires |outcomes| == |fetched|
    requires e in z
    requires forall i :: 0 <= i < |fetched| && fetched[i] == e.member ==> !outcomes[i].delivered
    ensures e in SweepFrom(z, fetched, outcomes).reminders
  {
  }

  /**
    A member that is not JSON, is `null`, or whose task throws when rendered is
    never removed: it is retried on every sweep.
   */
  lemma UnreadableStays(z: seq<Entry>, fetched: seq<string>, outcomes: seq<Attempt>, e: Entry)
    requires |outcomes| == |fetched|
    requires e in z && !Sendable(e.member)
    ensures e in SweepFrom(z, fetched, outcomes).reminders
  {
  }

  /**
    A stored reminder whose task is an object with its own `toString` key: the
    template throws, so nothing is sent or counted, and the member stays.
   */
  lemma OwnToStringTaskStays()
    ensures var task := JObj([Field("toString", JNum(0))]);
      var v := JObj([Field("id", JStr("r:1:1")), Field("chatId", JNum(1)), Field("task", task), Field("dueMs", JNum(0))]);
      var m := Serialise(v);
      var z := [Entry(m, 0)];
      && Parse(m) == Some(v)
      && !Sendable(m)
      && SweepFrom(z, [m], [Attempt(true, true)]) == Sweep(z, 0, [])
  {
    var task := JObj([Field("toString", JNum(0))]);
    var v := JObj([Field("id", JStr("r:1:1")), Field("chatId", JNum(1)), Field("task", task), Field("dueMs", JNum(0))]);
    var m := Serialise(v);
    RoundTrip(v);
    LookupUnique(v.fields, 2, "task");
    assert Lookup(task, "toString").Some?;
    assert [m][1..] == [] && [Attempt(true, true)][1..] == [];
  }

  /** Delivered but not removed: counted as sent, and still stored, so it will be sent again. */
  lemma AtLeastOnce(z: seq<Entry>, fetched: seq<string>, outcomes: seq<Attempt>, i: nat, e: Entry)
    requires |outcomes| == |fetched| && i < |fetched|
    requires e in z && fetched[i] == e.member && Succeeds(e.member, outcomes[i])
    requires forall j :: 0 <= j < |fetched| && fetched[j] == e.member ==> !outcomes[j].removed
    ensures NoticeFor(e.member) in SweepFrom(z, fetched, outcomes).notices
    ensures e in SweepFrom(z, fetched, outcomes).reminders
  {
  }

  /** Members that were not fetched are left alone. */
  lemma UnfetchedUntouched(z: seq<Entry>, fetched: seq<string>, outcomes: seq<Attempt>, e: Entry)
    requires |outcomes| == |fetched|
    requires e in z && e.member !in fetched
    ensures e in SweepFrom(z, fetched, outcomes).reminders
  {
  }

  // ---------------------------------------------------------------------------
  // Reminders written by the reminders skill
  // ---------------------------------------------------------------------------

  /** A member written by the reminders skill is read back as its chat and task. */
  lemma ReminderNotice(id: string, chat: int, task: string, due: int)
    ensures var m := Reminders.Member(id, chat, task, due);
      Sendable(m) && NoticeFor(m) == Notice(m, Some(JNum(chat)), "\U{23F0} Reminder: " + task)
  {
    Reminders.MemberReadsBack(id, chat, task, due);
  }

  /** Fetching by due time never sends a reminder before it is due. */
  lemma NeverEarly(z: seq<Entry>, now: int, outcomes: seq<Attempt>)
    requires Valid(z) && |outcomes| == |Fetch(z, now)|
    ensures forall n :: n in Get(Some(z), now, outcomes).notices ==>
      Score(z, n.member).Some? && 0 <= Score(z, n.member).value <= now
  {
    var f := Fetch(z, now);
    forall n | n in Get(Some(z), now, outcomes).notices
      ensures Score(z, n.member).Some? && 0 <= Score(z, n.member).value <= now
    {
      var i :| 0 <= i < |f| && Succeeds(f[i], outcomes[i]) && n == NoticeFor(f[i]);
      ScoreRangeExact(z, 0, now, f[i]);
    }
  }

  /** A reminder that has come due is sent to its chat on a sweep where Telegram and Redis cooperate, and removed. */
  lemma DueReminderDelivered(z: seq<Entry>, id: string, chat: int, task: string, due: int, now: int, outcomes: seq<Attempt>)
    requires Valid(z) && |outcomes| == |Fetch(z, now)|
    requires Score(z, Reminders.Member(id, chat, task, due)) == Some(due) && 0 <= due <= now
    requires forall i :: 0 <= i < |outcomes| ==> outcomes[i] == Attempt(true, true)
    ensures var m := Reminders.Member(id, chat, task, due);
      var r := Get(Some(z), now, outcomes);
      && Notice(m, Some(JNum(chat)), "\U{23F0} Reminder: " + task) in r.notices
      && !HasMember(r.reminders.value, m)
  {
    hide Reminders.Member, Parse, Readable, Sendable, Successes, Get, Run, NoticeFor, Deliveries, SweepFrom;
    var m := Reminders.Member(id, chat, task, due);
    var f := Fetch(z, now);
    assert m in f by { ScoreRangeExact(z, 0, now, m); }
    hide Fetch, ScoreRange;
    var i :| 0 <= i < |f| && f[i] == m;
    var s := SweepFrom(z, f, outcomes);
    assert NoticeFor(m) == Notice(m, Some(JNum(chat)), "\U{23F0} Reminder: " + task) by {
      ReminderNotice(id, chat, task, due);
    }
    assert NoticeFor(m) in s.notices && !HasMember(s.reminders, m) by {
      DeliveredAndRemoved(z, f, outcomes, i);
    }
    assert Get(Some(z), now, outcomes) == Result(Sent(s.sent), Some(s.reminders), s.notices) by {
      GetSweeps(z, now, outcomes);
    }
  }

  /** With Redis, `GET` replies with the sweep over the fetched members. */
  lemma GetSweeps(z: seq<Entry>, now: int, outcomes: seq<Attempt>)
    requires Valid(z) && |outcomes| == |Fetch(z, now)|
    ensures var s := SweepFrom(z, Fetch(z, now), outcomes);
      Get(Some(z), now, outcomes) == Result(Sent(s.sent), Some(s.reminders), s.notices)
  {
    hide NoticeFor, Readable, Successes, Deliveries;
  }

  /** A member delivered and removed on a sweep is among its notices and gone afterwards. */
  lemma DeliveredAndRemoved(z: seq<Entry>, fetched: seq<string>, outcomes: seq<Attempt>, i: nat)
    requires |outcomes| == |fetched| && i < |fetched|
    requires Succeeds(fetched[i], outcomes[i]) && outcomes[i].removed
    ensures var s := SweepFrom(z, fetched, outcomes);
      NoticeFor(fetched[i]) in s.notices && !HasMember(s.reminders, fetched[i])
  {
    assert Cleared(fetched[i], fetched, outcomes);
  }

  // ---------------------------------------------------------------------------
  // The fetch as written
  // ---------------------------------------------------------------------------

  /** With `now` a millisecond clock, the index range takes every stored member, due or not. */
  lemma AsWrittenFetchesAll(z: seq<Entry>, now: int)
    requires now >= |z|
    ensures FetchAsWritten(z, now) == Members(z)
  {
    RankRangeTakesAll(z, now);
  }

  /** A reminder due only in the future is sent, and removed, by the sweep as written. */
  lemma AsWrittenSendsEarly(id: string, chat: int, task: string, due: int, now: int)
    requires 1 <= now < due
    ensures var m := Reminders.Member(id, chat, task, due);
      && FetchAsWritten([Entry(m, due)], now) == [m]
      && var r := GetAsWritten(Some([Entry(m, due)]), now, [Attempt(true, true)]);
      && r.notices == [Notice(m, Some(JNum(chat)), "\U{23F0} Reminder: " + task)]
      && r.reminders == Some([])
  {
    var m := Reminders.Member(id, chat, task, due);
    var z := [Entry(m, due)];
    AsWrittenFetchesAll(z, now);
    assert Members(z) == [m];
    ReminderNotice(id, chat, task, due);
    assert Remove(z, m) == [];
    assert Succeeds(m, Attempt(true, true));
    assert SweepFrom(z, [m], [Attempt(true, true)]) == Sweep([], 1, [NoticeFor(m)]) by {
      assert [m][1..] == [] && [Attempt(true, true)][1..] == [];
    }
  }

  /** Fetching by due time leaves that same reminder alone. */
  lemma FixedWaits(id: string, chat: int, task: string, due: int, now: int, outcomes: seq<Attempt>)
    requires now < due
    requires |outcomes| == 0
    ensures var m := Reminders.Member(id, chat, task, due);
      var z := [Entry(m, due)];
      Fetch(z, now) == [] && Get(Some(z), now, outcomes) == Result(Sent(0), Some(z), [])
  {
    var z := [Entry(Reminders.Member(id, chat, task, due), due)];
    assert ScoreRangeEntries(z[1..], 0, now) == [];
  }
}

=== FILE: json.dfy ===
/**
  The JSON values the handlers exchange, with the compact text `JSON.stringify`
  produces and the reading `JSON.parse` gives it. Numbers are integers; the
  parser accepts the JSON grammar restricted to integral numbers, with white
  space between tokens.
 */
module Json {
  import opened Text

  datatype Json =
    | JNull
    | JBool(b: bool)
    | JNum(n: int)
    | JStr(s: string)
    | JArr(items: seq<Json>)
    | JObj(fields: seq<Field>)

  datatype Field = Field(key: string, value: Json)

  /** The four characters the JSON grammar allows between tokens. */
  predicate IsJsonSpace(c: char) {
    c == ' ' || c == '\t' || c == '\n' || c == '\r'
  }

  function SkipSpace(s: string): (t: string)
    ensures |t| <= |s|
    ensures |t| > 0 ==> !IsJsonSpace(t[0])
    ensures |s| > 0 && !IsJsonSpace(s[0]) ==> t == s
  {
    if |s| > 0 && IsJsonSpace(s[0]) then SkipSpace(s[1..]) else s
  }

  // ---------------------------------------------------------------------------
  // Strings
  // ---------------------------------------------------------------------------

  function HexDigit(d: nat): (c: char)
    requires d < 16
  {
    if d < 10 then DigitChar(d) else (('a' as int) + d - 10) as char
  }

  predicate IsHexDigit(c: char) {
    IsDigit(c) || 'a' <= c <= 'f' || 'A' <= c <= 'F'
  }

  function HexValue(c: char): (d: nat)
    requires IsHexDigit(c)
    ensures d < 16
  {
    if IsDigit(c) then DigitValue(c)
    else if 'a' <= c <= 'f' then (c as int) - ('a' as int) + 10
    else (c as int) - ('A' as int) + 10
  }

  lemma HexDigitValue(d: nat)
    requires d < 16
    ensures IsHexDigit(HexDigit(d)) && HexValue(HexDigit(d)) == d
  {
  }

  /** How `JSON.stringify` writes one character inside a string literal. */
  function EscapeChar(c: char): (e: string)
    ensures |e| > 0
  {
    if c == '"' then "\\\""
    else if c == '\\' then "\\\\"
    else if c == '\U{0008}' then "\\b"
    else if c == '\U{000C}' then "\\f"
    else if c == '\n' then "\\n"
    else if c == '\r' then "\\r"
    else if c == '\t' then "\\t"
    else if (c as int) < 0x20 then "\\u00" + [HexDigit((c as int) / 16), HexDigit((c as int) % 16)]
    else [c]
  }

  function Escape(s: string): string {
    if |s| == 0 then "" else EscapeChar(s[0]) + Escape(s[1..])
  }

  function Quote(s: string): string {
    "\"" + Escape(s) + "\""
  }

  /** Four hex digits at the start of `s`. */
  predicate HasHexQuad(s: string) {
    |s| >= 4 && IsHexDigit(s[0]) && IsHexDigit(s[1]) && IsHexDigit(s[2]) && IsHexDigit(s[3])
  }

  /** The UTF-16 code unit that four hex digits name. */
  function HexQuad(s: string): (u: nat)
    requires HasHexQuad(s)
    ensures u < 0x10000
  {
    4096 * HexValue(s[0]) + 256 * HexValue(s[1]) + 16 * HexValue(s[2]) + HexValue(s[3])
  }

  /**
    Reads the escape sequence that follows a backslash: the character it
    stands for and how many characters it takes. A `\u` escape of a high
    surrogate followed by a `\u` escape of a low surrogate is one character
    outside the Basic Multilingual Plane; a surrogate escape on its own is
    refused (a `string` holds whole code points).
   */
  function ParseEscape(s: string): (r: Option<(char, nat)>)
    ensures r.Some? ==> 0 < r.value.1 <= |s|
  {
    if |s| == 0 then None
    else if s[0] == '"' then Some(('"', 1))
    else if s[0] == '\\' then Some(('\\', 1))
    else if s[0] == '/' then Some(('/', 1))
    else if s[0] == 'b' then Some(('\U{0008}', 1))
    else if s[0] == 'f' then Some(('\U{000C}', 1))
    else if s[0] == 'n' then Some(('\n', 1))
    else if s[0] == 'r' then Some(('\r', 1))
    else if s[0] == 't' then Some(('\t', 1))
    else if s[0] == 'u' && HasHexQuad(s[1..]) then
      var code := HexQuad(s[1..]);
      if code < 0xD800 || 0xE000 <= code then Some((code as char, 5))
      else if code < 0xDC00 && |s| >= 7 && s[5] == '\\' && s[6] == 'u' && HasHexQuad(s[7..]) then
        var low := HexQuad(s[7..]);
        if 0xDC00 <= low < 0xE000 then Some(((0x10000 + (code - 0xD800) * 0x400 + (low - 0xDC00)) as char, 11))
        else None
      else None
    else None
  }

  /** Four lower-case hex digits naming a UTF-16 code unit. */
  function Hex4(u: nat): (h: string)
    requires u < 0x10000
    ensures |h| == 4 && HasHexQuad(h) && HexQuad(h) == u
  {
    var q1 := u / 16;
    var q2 := q1 / 16;
    var d0, d1, d2, d3 := q2 / 16, q2 % 16, q1 % 16, u % 16;
    HexDigitValue(d0);
    HexDigitValue(d1);
    HexDigitValue(d2);
    HexDigitValue(d3);
    [HexDigit(d0), HexDigit(d1), HexDigit(d2), HexDigit(d3)]
  }

  /** The UTF-16 code units of a character outside the Basic Multilingual Plane (section 2.1 of RFC 2781). */
  function HighSurrogate(c: char): nat
    requires c as int >= 0x10000
  {
    0xD800 + (c as int - 0x10000) / 0x400
  }

  function LowSurrogate(c: char): nat
    requires c as int >= 0x10000
  {
    0xDC00 + (c as int - 0x10000) % 0x400
  }

  /** `s` starts with a `\u` escape of a low surrogate. */
  predicate LowEscapeAt(s: string) {
    |s| >= 6 && s[0] == '\\' && s[1] == 'u' && HasHexQuad(s[2..]) && 0xDC00 <= HexQuad(s[2..]) < 0xE000
  }

  /** The two `\u` escapes of a character's UTF-16 halves read back as that character. */
  lemma SurrogatePairEscape(c: char, tail: string)
    requires c as int >= 0x10000
    ensures 0xD800 <= HighSurrogate(c) < 0xDC00 && 0xDC00 <= LowSurrogate(c) < 0xE000
    ensures ParseEscape("u" + Hex4(HighSurrogate(c)) + "\\u" + Hex4(LowSurrogate(c)) + tail) == Some((c, 11))
  {
    var hi, lo := HighSurrogate(c), LowSurrogate(c);
    var s := "u" + Hex4(hi) + "\\u" + Hex4(lo) + tail;
    assert s[1..][..4] == Hex4(hi);
    assert s[7..][..4] == Hex4(lo);
    assert HexQuad(s[1..]) == hi && HexQuad(s[7..]) == lo;
    assert 0x10000 + (hi - 0xD800) * 0x400 + (lo - 0xDC00) == c as int;
  }

  /**
    A surrogate escape that is not the high half of a pair is refused: a low
    surrogate always, a high one exactly when no low-surrogate escape follows.
   */
  lemma LoneSurrogateEscape(code: nat, tail: string)
    requires 0xD800 <= code < 0xE000
    ensures code >= 0xDC00 ==> ParseEscape("u" + Hex4(code) + tail) == None
    ensures code < 0xDC00 ==> (ParseEscape("u" + Hex4(code) + tail) == None <==> !LowEscapeAt(tail))
  {
    var s := "u" + Hex4(code) + tail;
    assert s[1..][..4] == Hex4(code);
    assert s[5..] == tail;
  }

  /** `JSON.parse` of the pair of escapes for U+1F600. */
  lemma SurrogatePairExample()
    ensures Parse("\"\\ud83d\\ude00\"") == Some(JStr("\U{1F600}"))
    ensures ParseEscape("ud83d") == None
  {
    var body := "\\ud83d\\ude00\"";
    assert HexQuad(body[2..]) == 0xD83D;
    assert HexQuad(body[8..]) == 0xDE00;
    assert ParseEscape(body[1..]) == Some(('\U{1F600}', 11));
    assert body[12..] == "\"";
    assert ParseStringBody(body[12..]) == Some(("", ""));
    assert body[0] == '\\' && body[1 + 11..] == body[12..];
    assert ['\U{1F600}'] + "" == "\U{1F600}";
    assert ParseStringBody(body) == Some(("\U{1F600}", ""));
  }

  /** Reads the rest of a string literal after its opening quote. */
  function ParseStringBody(s: string): (r: Option<(string, string)>)
    ensures r.Some? ==> |r.value.1| < |s|
    decreases |s|
  {
    if |s| == 0 then None
    else if s[0] == '"' then Some(("", s[1..]))
    else if s[0] == '\\' then
      match ParseEscape(s[1..])
      case None => None
      case Some((c, k)) =>
        match ParseStringBody(s[1 + k..])
        case None => None
        case Some((body, rest)) => Some(([c] + body, rest))
    else if (s[0] as int) < 0x20 then None
    else
      match ParseStringBody(s[1..])
      case None => None
      case Some((body, rest)) => Some(([s[0]] + body, rest))
  }

  /** A character `JSON.stringify` writes as a `\u00XX` escape. */
  predicate NeedsUnicodeEscape(c: char) {
    (c as int) < 0x20 && c != '\U{0008}' && c != '\U{000C}' && c != '\n' && c != '\r' && c != '\t'
  }

  lemma UnicodeEscapeRoundTrip(c: char, tail: string)
    requires NeedsUnicodeEscape(c)
    ensures EscapeChar(c)[0] == '\\'
    ensures ParseEscape(EscapeChar(c)[1..] + tail) == Some((c, 5))
  {
    var hi, lo := (c as int) / 16, (c as int) % 16;
    HexDigitValue(hi);
    HexDigitValue(lo);
    var u := EscapeChar(c)[1..] + tail;
    assert u[..5] == ['u', '0', '0', HexDigit(hi), HexDigit(lo)];
  }

  lemma EscapeSequenceRoundTrip(c: char, tail: string)
    requires EscapeChar(c) != [c]
    ensures EscapeChar(c)[0] == '\\'
    ensures ParseEscape(EscapeChar(c)[1..] + tail) == Some((c, |EscapeChar(c)| - 1))
  {
    if NeedsUnicodeEscape(c) {
      UnicodeEscapeRoundTrip(c, tail);
    }
  }

  /** Reading an escaped character yields the character and moves past its escape. */
  lemma EscapeCharRoundTrip(c: char, tail: string)
    ensures ParseStringBody(EscapeChar(c) + tail) ==
              match ParseStringBody(tail)
              case None => None
              case Some((body, rest)) => Some(([c] + body, rest))
  {
    var e := EscapeChar(c);
    var s := e + tail;
    if e == [c] {
      assert s[1..] == tail;
    } else {
      EscapeSequenceRoundTrip(c, tail);
      assert s[1..] == e[1..] + tail;
      assert s[1 + (|e| - 1)..] == tail;
    }
  }

  lemma {:induction false} StringRoundTrip(str: string, rest: string)
    ensures ParseStringBody(Escape(str) + "\"" + rest) == Some((str, rest))
  {
    if |str| == 0 {
      assert Escape(str) + "\"" + rest == "\"" + rest;
    } else {
      var tail := Escape(str[1..]) + "\"" + rest;
      assert Escape(str) + "\"" + rest == EscapeChar(str[0]) + tail;
      EscapeCharRoundTrip(str[0], tail);
      StringRoundTrip(str[1..], rest);
      assert [str[0]] + str[1..] == str;
    }
  }

  // ---------------------------------------------------------------------------
  // Values
  // ---------------------------------------------------------------------------

  /** `JSON.stringify`: compact, no white space, fields in their given order. */
  function Serialise(v: Json): (t: string)
    ensures |t| > 0
    decreases v
  {
    match v
    case JNull => "null"
    case JBool(b) => if b then "true" else "false"
    case JNum(n) => Decimal(n)
    case JStr(s) => Quote(s)
    case JArr(items) => "[" + SerialiseItems(items) + "]"
    case JObj(fields) => "{" + SerialiseFields(fields) + "}"
  }

  function SerialiseItems(items: seq<Json>): string
    decreases items
  {
    if |items| == 0 then "" else Serialise(items[0]) + SerialiseMoreItems(items[1..])
  }

  /** The items after the first, each preceded by a comma. */
  function SerialiseMoreItems(items: seq<Json>): string
    decreases items
  {
    if |items| == 0 then "" else "," + Serialise(items[0]) + SerialiseMoreItems(items[1..])
  }

  function SerialiseField(f: Field): string
    decreases f
  {
    Quote(f.key) + ":" + Serialise(f.value)
  }

  function SerialiseFields(fields: seq<Field>): string
    decreases fields
  {
    if |fields| == 0 then "" else SerialiseField(fields[0]) + SerialiseMoreFields(fields[1..])
  }

  function SerialiseMoreFields(fields: seq<Field>): string
    decreases fields
  {
    if |fields| == 0 then "" else "," + SerialiseField(fields[0]) + SerialiseMoreFields(fields[1..])
  }

  // ---------------------------------------------------------------------------
  // Reading
  // ---------------------------------------------------------------------------

  /** An optionally signed run of digits; a leading `0` stands alone. */
  function ParseNumber(s: string): (r: Option<(Json, string)>)
    ensures r.Some? ==> |r.value.1| < |s|
  {
    var neg := |s| > 0 && s[0] == '-';
    var u := if neg then s[1..] else s;
    if |u| == 0 || !IsDigit(u[0]) then None
    else
      var k := if u[0] == '0' then 1 else DigitRun(u);
      var magnitude: int := DigitsValue(u[..k]);
      Some((JNum(if neg then -magnitude else magnitude), u[k..]))
  }

  function ParseLiteral(s: string, word: string, v: Json): (r: Option<(Json, string)>)
    requires |word| > 0
    ensures r.Some? ==> |r.value.1| < |s|
  {
    if StartsWith(s, word) then Some((v, s[|word|..])) else None
  }

  /** One value, after any white space; yields the value and the unread rest. */
  function ParseValue(s: string): (r: Option<(Json, string)>)
    ensures r.Some? ==> |r.value.1| < |s|
    decreases |s|, 1
  {
    var t := SkipSpace(s);
    if |t| == 0 then None
    else if t[0] == 'n' then ParseLiteral(t, "null", JNull)
    else if t[0] == 't' then ParseLiteral(t, "true", JBool(true))
    else if t[0] == 'f' then ParseLiteral(t, "false", JBool(false))
    else if t[0] == '"' then
      match ParseStringBody(t[1..])
      case None => None
      case Some((str, rest)) => Some((JStr(str), rest))
    else if t[0] == '[' then ParseArray(t[1..])
    else if t[0] == '{' then ParseObject(t[1..])
    else ParseNumber(t)
  }

  /** The rest of an array after its `[`. */
  function ParseArray(s: string): (r: Option<(Json, string)>)
    ensures r.Some? ==> |r.value.1| < |s|
    decreases |s|, 3
  {
    var t := SkipSpace(s);
    if |t| > 0 && t[0] == ']' then Some((JArr([]), t[1..]))
    else
      match ParseValue(t)
      case None => None
      case Some((v, rest)) => ParseMoreItems(rest, [v])
  }

  /** After an item: either `]`, or `,` and another item; `acc` holds the items so far. */
  function ParseMoreItems(s: string, acc: seq<Json>): (r: Option<(Json, string)>)
    ensures r.Some? ==> |r.value.1| < |s|
    decreases |s|, 2
  {
    var t := SkipSpace(s);
    if |t| == 0 then None
    else if t[0] == ']' then Some((JArr(acc), t[1..]))
    else if t[0] == ',' then
      match ParseValue(t[1..])
      case None => None
      case Some((v, rest)) => ParseMoreItems(rest, acc + [v])
    else None
  }

  /** A `"key": value` pair. */
  function ParseField(s: string): (r: Option<(Field, string)>)
    ensures r.Some? ==> |r.value.1| < |s|
    decreases |s|, 2
  {
    var t := SkipSpace(s);
    if |t| == 0 || t[0] != '"' then None
    else
      match ParseStringBody(t[1..])
      case None => None
      case Some((key, afterKey)) =>
        var u := SkipSpace(afterKey);
        if |u| == 0 || u[0] != ':' then None
        else
          match ParseValue(u[1..])
          case None => None
          case Some((v, rest)) => Some((Field(key, v), rest))
  }

  /** The rest of an object after its `{`. */
  function ParseObject(s: string): (r: Option<(Json, string)>)
    ensures r.Some? ==> |r.value.1| < |s|
    decreases |s|, 3
  {
    var t := SkipSpace(s);
    if |t| > 0 && t[0] == '}' then Some((JObj([]), t[1..]))
    else
      match ParseField(t)
      case None => None
      case Some((f, rest)) => ParseMoreFields(rest, [f])
  }

  function ParseMoreFields(s: string, acc: seq<Field>): (r: Option<(Json, string)>)
    ensures r.Some? ==> |r.value.1| < |s|
    decreases |s|, 2
  {
    var t := SkipSpace(s);
    if |t| == 0 then None
    else if t[0] == '}' then Some((JObj(acc), t[1..]))
    else if t[0] == ',' then
      match ParseField(t[1..])
      case None => None
      case Some((f, rest)) => ParseMoreFields(rest, acc + [f])
    else None
  }

  /** `JSON.parse`: one value and nothing but white space after it; `None` where it throws. */
  function Parse(s: string): (r: Option<Json>)
    ensures SkipSpace(s) == [] ==> r.None?
  {
    match ParseValue(s)
    case None => None
    case Some((v, rest)) => if SkipSpace(rest) == [] then Some(v) else None
  }

  /**
    A property read `v.key` on a parsed value: the last field of that name
    (later duplicates win in `JSON.parse`); `None` stands for `undefined`.
   */
  function Lookup(v: Json, key: string): Option<Json> {
    if v.JObj? then LastField(v.fields, key) else None
  }

  function LastField(fields: seq<Field>, key: string): (r: Option<Json>)
    ensures r.Some? <==> exists i :: 0 <= i < |fields| && fields[i].key == key
    ensures r.Some? ==> exists i :: 0 <= i < |fields| && fields[i] == Field(key, r.value)
                                   && forall j :: i < j < |fields| ==> fields[j].key != key
  {
    if |fields| == 0 then None
    else if fields[|fields| - 1].key == key then Some(fields[|fields| - 1].value)
    else LastField(fields[..|fields| - 1], key)
  }

  /** When exactly one field has the key, a property read gives that field's value. */
  lemma LookupUnique(fields: seq<Field>, i: nat, key: string)
    requires i < |fields| && fields[i].key == key
    requires forall j :: 0 <= j < |fields| && j != i ==> fields[j].key != key
    ensures Lookup(JObj(fields), key) == Some(fields[i].value)
  {
  }

  // ---------------------------------------------------------------------------
  // Round trip
  // ---------------------------------------------------------------------------

  /** What may follow a value's text without changing how it reads. */
  predicate Delimited(rest: string) {
    rest == [] || !IsDigit(rest[0])
  }

  // Regrouping of concatenations, stated once so the proofs below need not
  // rediscover it.

  lemma PeelFirst(a: string, b: string, c: string, d: string)
    ensures a + b + c + d == a + (b + c + d)
  {
  }

  lemma PeelCommaAndItem(a: string, b: string, c: string, d: string, e: string)
    ensures a + b + c + d + e == a + (b + (c + d + e))
  {
  }

  lemma PeelQuotedKey(a: string, b: string, c: string, d: string, e: string, f: string)
    ensures a + b + c + d + e + f == a + (b + c + (d + (e + f)))
  {
  }

  // How each serialiser unfolds, one step at a time.

  lemma SerialiseUnfold(v: Json)
    ensures v.JNull? ==> Serialise(v) == "null"
    ensures v.JBool? ==> Serialise(v) == if v.b then "true" else "false"
    ensures v.JNum? ==> Serialise(v) == Decimal(v.n)
    ensures v.JStr? ==> Serialise(v) == "\"" + Escape(v.s) + "\""
    ensures v.JArr? ==> Serialise(v) == "[" + SerialiseItems(v.items) + "]"
    ensures v.JObj? ==> Serialise(v) == "{" + SerialiseFields(v.fields) + "}"
  {
  }

  lemma ItemsUnfold(items: seq<Json>)
    ensures |items| == 0 ==> SerialiseItems(items) == [] && SerialiseMoreItems(items) == []
    ensures |items| > 0 ==> SerialiseItems(items) == Serialise(items[0]) + SerialiseMoreItems(items[1..])
    ensures |items| > 0 ==> SerialiseMoreItems(items) == "," + Serialise(items[0]) + SerialiseMoreItems(items[1..])
  {
  }

  lemma FieldsUnfold(fields: seq<Field>)
    ensures |fields| == 0 ==> SerialiseFields(fields) == [] && SerialiseMoreFields(fields) == []
    ensures |fields| > 0 ==> SerialiseFields(fields) == SerialiseField(fields[0]) + SerialiseMoreFields(fields[1..])
    ensures |fields| > 0 ==> SerialiseMoreFields(fields) == "," + SerialiseField(fields[0]) + SerialiseMoreFields(fields[1..])
  {
  }

  lemma FieldUnfold(f: Field)
    ensures SerialiseField(f) == "\"" + Escape(f.key) + "\"" + ":" + Serialise(f.value)
  {
  }

  // One unfolding of the reader at a time, stated over arbitrary text.

  lemma ReadNull(rest: string)
    ensures ParseValue("null" + rest) == Some((JNull, rest))
  {
    var s := "null" + rest;
    assert s[0] == 'n' && s[..4] == "null" && s[4..] == rest;
  }

  lemma ReadTrue(rest: string)
    ensures ParseValue("true" + rest) == Some((JBool(true), rest))
  {
    var s := "true" + rest;
    assert s[0] == 't' && s[..4] == "true" && s[4..] == rest;
  }

  lemma ReadFalse(rest: string)
    ensures ParseValue("false" + rest) == Some((JBool(false), rest))
  {
    var s := "false" + rest;
    assert s[0] == 'f' && s[..5] == "false" && s[5..] == rest;
  }

  lemma ReadNumber(s: string)
    requires |s| > 0 && (s[0] == '-' || IsDigit(s[0]))
    ensures ParseValue(s) == ParseNumber(s)
  {
    hide ParseNumber, ParseArray, ParseObject, ParseStringBody, ParseLiteral;
    assert SkipSpace(s) == s;
  }

  lemma ReadString(x: string)
    requires ParseStringBody(x).Some?
    ensures ParseValue("\"" + x) == Some((JStr(ParseStringBody(x).value.0), ParseStringBody(x).value.1))
  {
    assert ("\"" + x)[1..] == x;
  }

  lemma ReadArray(x: string)
    ensures ParseValue("[" + x) == ParseArray(x)
  {
    assert ("[" + x)[1..] == x;
  }

  lemma ReadObject(x: string)
    ensures ParseValue("{" + x) == ParseObject(x)
  {
    assert ("{" + x)[1..] == x;
  }

  lemma ReadEmptyArray(rest: string)
    ensures ParseArray("]" + rest) == Some((JArr([]), rest))
  {
    assert ("]" + rest)[1..] == rest;
  }

  lemma ReadFirstItem(x: string)
    requires |x| > 0 && !IsJsonSpace(x[0]) && x[0] != ']' && ParseValue(x).Some?
    ensures ParseArray(x) == ParseMoreItems(ParseValue(x).value.1, [ParseValue(x).value.0])
  {
  }

  lemma ReadArrayEnd(rest: string, acc: seq<Json>)
    ensures ParseMoreItems("]" + rest, acc) == Some((JArr(acc), rest))
  {
    assert ("]" + rest)[1..] == rest;
  }

  lemma ReadNextItem(x: string, acc: seq<Json>)
    requires ParseValue(x).Some?
    ensures ParseMoreItems("," + x, acc) == ParseMoreItems(ParseValue(x).value.1, acc + [ParseValue(x).value.0])
  {
    assert ("," + x)[1..] == x;
  }

  lemma ReadEmptyObject(rest: string)
    ensures ParseObject("}" + rest) == Some((JObj([]), rest))
  {
    assert ("}" + rest)[1..] == rest;
  }

  lemma ReadFirstField(x: string)
    requires |x| > 0 && x[0] == '"' && ParseField(x).Some?
    ensures ParseObject(x) == ParseMoreFields(ParseField(x).value.1, [ParseField(x).value.0])
  {
  }

  lemma ReadObjectEnd(rest: string, acc: seq<Field>)
    ensures ParseMoreFields("}" + rest, acc) == Some((JObj(acc), rest))
  {
    assert ("}" + rest)[1..] == rest;
  }

  lemma ReadNextField(x: string, acc: seq<Field>)
    requires ParseField(x).Some?
    ensures ParseMoreFields("," + x, acc) == ParseMoreFields(ParseField(x).value.1, acc + [ParseField(x).value.0])
  {
    assert ("," + x)[1..] == x;
  }

  lemma ReadField(x: string, key: string, y: string, v: Json, rest: string)
    requires ParseStringBody(x) == Some((key, ":" + y))
    requires ParseValue(y) == Some((v, rest))
    ensures ParseField("\"" + x) == Some((Field(key, v), rest))
  {
    assert ("\"" + x)[1..] == x;
    assert (":" + y)[1..] == y;
  }

  // Scalars.

  lemma NatRoundTrip(m: nat, rest: string)
    requires Delimited(rest)
    ensures ParseNumber(NatDigits(m) + rest) == Some((JNum(m), rest))
  {
    var d := NatDigits(m);
    var s := d + rest;
    DigitsRoundTrip(m);
    if m == 0 {
      assert s[..1] == d && s[1..] == rest;
    } else {
      DigitRunOfDigits(d, rest);
    }
  }

  lemma NegativeRoundTrip(m: nat, rest: string)
    requires m > 0 && Delimited(rest)
    ensures ParseNumber("-" + NatDigits(m) + rest) == Some((JNum(-(m as int)), rest))
  {
    var d := NatDigits(m);
    var s := "-" + d + rest;
    assert s[1..] == d + rest;
    DigitsRoundTrip(m);
    DigitRunOfDigits(d, rest);
  }

  lemma NumberRoundTrip(n: int, rest: string)
    requires Delimited(rest)
    ensures ParseValue(Decimal(n) + rest) == Some((JNum(n), rest))
  {
    ReadNumber(Decimal(n) + rest);
    if n < 0 {
      NegativeRoundTrip(-n, rest);
    } else {
      NatRoundTrip(n, rest);
    }
  }

  lemma StrValueRoundTrip(str: string, rest: string)
    ensures ParseValue(Serialise(JStr(str)) + rest) == Some((JStr(str), rest))
  {
    hide *;
    SerialiseUnfold(JStr(str));
    PeelFirst("\"", Escape(str), "\"", rest);
    StringRoundTrip(str, rest);
    ReadString(Escape(str) + "\"" + rest);
  }

  lemma ArrValueRoundTrip(items: seq<Json>, rest: string)
    requires ParseArray(SerialiseItems(items) + "]" + rest) == Some((JArr(items), rest))
    ensures ParseValue(Serialise(JArr(items)) + rest) == Some((JArr(items), rest))
  {
    hide *;
    SerialiseUnfold(JArr(items));
    PeelFirst("[", SerialiseItems(items), "]", rest);
    ReadArray(SerialiseItems(items) + "]" + rest);
  }

  lemma ObjValueRoundTrip(fields: seq<Field>, rest: string)
    requires ParseObject(SerialiseFields(fields) + "}" + rest) == Some((JObj(fields), rest))
    ensures ParseValue(Serialise(JObj(fields)) + rest) == Some((JObj(fields), rest))
  {
    hide *;
    SerialiseUnfold(JObj(fields));
    PeelFirst("{", SerialiseFields(fields), "}", rest);
    ReadObject(SerialiseFields(fields) + "}" + rest);
  }

  /** Every serialised value starts with a character that the reader takes as its start. */
  lemma SerialiseFirst(v: Json)
    ensures var c := Serialise(v)[0];
            !IsJsonSpace(c) && c != ']' && c != '}' && c != ','
  {
    SerialiseUnfold(v);
    if v.JNum? && v.n >= 0 {
      assert IsDigit(Serialise(v)[0]);
    }
  }

  // The mutually inductive round trip. Each proof hides every function body
  // and reasons only through the steps above.

  /** Reading `JSON.stringify(v)` followed by a delimiter gives back `v`. */
  lemma {:induction false} ValueRoundTrip(v: Json, rest: string)
    requires Delimited(rest)
    ensures ParseValue(Serialise(v) + rest) == Some((v, rest))
    decreases v, 1
  {
    hide *;
    SerialiseUnfold(v);
    match v
    case JNull => ReadNull(rest);
    case JBool(b) => if b { ReadTrue(rest); } else { ReadFalse(rest); }
    case JNum(n) => NumberRoundTrip(n, rest);
    case JStr(str) => StrValueRoundTrip(str, rest);
    case JArr(items) =>
      ArrayRoundTrip(items, rest);
      ArrValueRoundTrip(items, rest);
    case JObj(fields) =>
      ObjectRoundTrip(fields, rest);
      ObjValueRoundTrip(fields, rest);
  }

  lemma DelimitedAfterItem(items: seq<Json>, rest: string)
    ensures Delimited(SerialiseMoreItems(items) + "]" + rest)
  {
    ItemsUnfold(items);
  }

  lemma DelimitedAfterField(fields: seq<Field>, rest: string)
    ensures Delimited(SerialiseMoreFields(fields) + "}" + rest)
  {
    FieldsUnfold(fields);
  }

  lemma {:induction false} ArrayRoundTrip(items: seq<Json>, rest: string)
    requires Delimited(rest)
    ensures ParseArray(SerialiseItems(items) + "]" + rest) == Some((JArr(items), rest))
    decreases items, 2
  {
    hide *;
    ItemsUnfold(items);
    if |items| == 0 {
      assert SerialiseItems(items) + "]" + rest == "]" + rest;
      ReadEmptyArray(rest);
    } else {
      var more := SerialiseMoreItems(items[1..]);
      var x := Serialise(items[0]) + (more + "]" + rest);
      PeelFirst(Serialise(items[0]), more, "]", rest);
      DelimitedAfterItem(items[1..], rest);
      ValueRoundTrip(items[0], more + "]" + rest);
      SerialiseFirst(items[0]);
      assert x[0] == Serialise(items[0])[0];
      ReadFirstItem(x);
      MoreItemsRoundTrip(items[1..], [items[0]], rest);
      assert [items[0]] + items[1..] == items;
    }
  }

  lemma {:induction false} MoreItemsRoundTrip(items: seq<Json>, acc: seq<Json>, rest: string)
    requires Delimited(rest)
    ensures ParseMoreItems(SerialiseMoreItems(items) + "]" + rest, acc) == Some((JArr(acc + items), rest))
    decreases items, 0
  {
    hide *;
    ItemsUnfold(items);
    if |items| == 0 {
      assert SerialiseMoreItems(items) + "]" + rest == "]" + rest;
      ReadArrayEnd(rest, acc);
      assert acc + items == acc;
    } else {
      var more := SerialiseMoreItems(items[1..]);
      var x := Serialise(items[0]) + (more + "]" + rest);
      PeelCommaAndItem(",", Serialise(items[0]), more, "]", rest);
      DelimitedAfterItem(items[1..], rest);
      ValueRoundTrip(items[0], more + "]" + rest);
      ReadNextItem(x, acc);
      MoreItemsRoundTrip(items[1..], acc + [items[0]], rest);
      assert acc + [items[0]] + items[1..] == acc + items;
    }
  }

  lemma {:induction false} FieldRoundTrip(f: Field, rest: string)
    requires Delimited(rest)
    ensures ParseField(SerialiseField(f) + rest) == Some((f, rest))
    decreases f, 1
  {
    hide *;
    var y := Serialise(f.value) + rest;
    var x := Escape(f.key) + "\"" + (":" + y);
    FieldUnfold(f);
    PeelQuotedKey("\"", Escape(f.key), "\"", ":", Serialise(f.value), rest);
    StringRoundTrip(f.key, ":" + y);
    ValueRoundTrip(f.value, rest);
    ReadField(x, f.key, y, f.value, rest);
  }

  lemma {:induction false} ObjectRoundTrip(fields: seq<Field>, rest: string)
    requires Delimited(rest)
    ensures ParseObject(SerialiseFields(fields) + "}" + rest) == Some((JObj(fields), rest))
    decreases fields, 2
  {
    hide *;
    FieldsUnfold(fields);
    if |fields| == 0 {
      assert SerialiseFields(fields) + "}" + rest == "}" + rest;
      ReadEmptyObject(rest);
    } else {
      var more := SerialiseMoreFields(fields[1..]);
      var x := SerialiseField(fields[0]) + (more + "}" + rest);
      PeelFirst(SerialiseField(fields[0]), more, "}", rest);
      DelimitedAfterField(fields[1..], rest);
      FieldRoundTrip(fields[0], more + "}" + rest);
      FieldUnfold(fields[0]);
      assert x[0] == '"';
      ReadFirstField(x);
      MoreFieldsRoundTrip(fields[1..], [fields[0]], rest);
      assert [fields[0]] + fields[1..] == fields;
    }
  }

  lemma {:induction false} MoreFieldsRoundTrip(fields: seq<Field>, acc: seq<Field>, rest: string)
    requires Delimited(rest)
    ensures ParseMoreFields(SerialiseMoreFields(fields) + "}" + rest, acc) == Some((JObj(acc + fields), rest))
    decreases fields, 0
  {
    hide *;
    FieldsUnfold(fields);
    if |fields| == 0 {
      assert SerialiseMoreFields(fields) + "}" + rest == "}" + rest;
      ReadObjectEnd(rest, acc);
      assert acc + fields == acc;
    } else {
      var more := SerialiseMoreFields(fields[1..]);
      var x := SerialiseField(fields[0]) + (more + "}" + rest);
      PeelCommaAndItem(",", SerialiseField(fields[0]), more, "}", rest);
      DelimitedAfterField(fields[1..], rest);
      FieldRoundTrip(fields[0], more + "}" + rest);
      ReadNextField(x, acc);
      MoreFieldsRoundTrip(fields[1..], acc + [fields[0]], rest);
      assert acc + [fields[0]] + fields[1..] == acc + fields;
    }
  }

  /** `JSON.parse(JSON.stringify(v))` is `v`. */
  lemma RoundTrip(v: Json)
    ensures Parse(Serialise(v)) == Some(v)
  {
    ValueRoundTrip(v, []);
    assert Serialise(v) + [] == Serialise(v);
  }
}

=== FILE: kv.dfy ===
/**
  The key-value adapter over Redis. A store holds, per key, the text that was
  written and the expiry option the write carried; `None` stands for a
  deployment without Redis credentials, where there is no client at all.
  Reads give JavaScript values, with `JNull` for every `null` result.
 */
module Kv {
  import opened Text
  import opened Json

  /** One `SET`: the stored text and the `ex` seconds it was written with, if any. */
  datatype Stored = Stored(text: string, expiry: Option<int>)

  type Store = Option<map<string, Stored>>

  /** The text written for a value: strings as they are, anything else as its JSON. */
  function Encode(value: Json): (t: string)
    ensures value.JStr? ==> t == value.s
    ensures !value.JStr? ==> Parse(t) == Some(value)
  {
    if value.JStr? then value.s
    else
      RoundTrip(value);
      Serialise(value)
  }

  /** `ttlSec` in a condition: absent and zero are falsy, every other number is truthy. */
  predicate Truthy(ttl: Option<int>) {
    ttl.Some? && ttl.value != 0
  }

  /** kvSet: writes the encoded value, with an expiry only when the TTL is truthy; a no-op without Redis. */
  function KvSet(store: Store, key: string, value: Json, ttl: Option<int>): (r: Store)
    ensures store.None? ==> r.None?
    ensures store.Some? ==> r.Some? && key in r.value && r.value[key].text == Encode(value)
    ensures store.Some? ==> (r.value[key].expiry.Some? <==> Truthy(ttl))
    ensures store.Some? && Truthy(ttl) ==> r.value[key].expiry == ttl
    ensures store.Some? ==> forall k :: k != key ==> (k in r.value <==> k in store.value)
    ensures store.Some? ==> forall k :: k != key && k in store.value ==> r.value[k] == store.value[k]
  {
    match store
    case None => None
    case Some(m) =>
      var expiry := if Truthy(ttl) then ttl else None;
      Some(m[key := Stored(Encode(value), expiry)])
  }

  /**
    kvGet: the parsed value under `key`; `null` without Redis, for a missing
    key, for an empty stored text, and for a text that is not JSON.
   */
  function KvGet(store: Store, key: string): (r: Json)
    ensures store.None? ==> r == JNull
    ensures store.Some? && key !in store.value ==> r == JNull
    ensures store.Some? && key in store.value && store.value[key].text == "" ==> r == JNull
    ensures store.Some? && key in store.value && Parse(store.value[key].text).None? ==> r == JNull
    ensures store.Some? && key in store.value && store.value[key].text != "" && Parse(store.value[key].text).Some? ==>
      r == Parse(store.value[key].text).value
    ensures r != JNull ==> store.Some? && key in store.value
                           && Parse(store.value[key].text) == Some(r)
  {
    match store
    case None => JNull
    case Some(m) =>
      if key !in m || m[key].text == "" then JNull
      else
        match Parse(m[key].text)
        case None => JNull
        case Some(v) => v
  }

  /** Any value other than a string reads back as written, whatever the TTL. */
  lemma NonStringRoundTrip(store: Store, key: string, value: Json, ttl: Option<int>)
    requires store.Some? && !value.JStr?
    ensures KvGet(KvSet(store, key, value, ttl), key) == value
  {
    var r := KvSet(store, key, value, ttl);
    assert Parse(r.value[key].text) == Some(value);
  }

  /** A string is written verbatim, so it reads back as whatever JSON its text spells. */
  lemma StringReadsAsItsText(store: Store, key: string, s: string, ttl: Option<int>)
    requires store.Some? && s != ""
    ensures KvGet(KvSet(store, key, JStr(s), ttl), key) == match Parse(s) case None => JNull case Some(v) => v
  {
  }

  /** Writing a value's JSON as a string is the same, for a reader, as writing the value. */
  lemma PreSerialisedString(store: Store, key: string, value: Json, ttl: Option<int>)
    requires store.Some?
    ensures KvGet(KvSet(store, key, JStr(Serialise(value)), ttl), key) == value
  {
    RoundTrip(value);
  }

  /** The plain string `hello` is not JSON, so it reads back as `null`. */
  lemma HelloReadsNull(store: Store, key: string, ttl: Option<int>)
    requires store.Some?
    ensures KvGet(KvSet(store, key, JStr("hello"), ttl), key) == JNull
  {
    assert Parse("hello") == None by {
      assert SkipSpace("hello") == "hello";
      assert ParseNumber("hello") == None;
    }
  }

  /** The empty string reads back as `null`. */
  lemma EmptyStringReadsNull(store: Store, key: string, ttl: Option<int>)
    requires store.Some?
    ensures KvGet(KvSet(store, key, JStr(""), ttl), key) == JNull
  {
  }

  /** A write under one key leaves what every other key reads unchanged. */
  lemma SetIsolated(store: Store, key: string, other: string, value: Json, ttl: Option<int>)
    requires other != key
    ensures KvGet(KvSet(store, key, value, ttl), other) == KvGet(store, other)
  {
  }
}

=== FILE: notes.dfy ===
/**
  The notes skill: a per-chat, in-memory, append-only list of notes. A voice
  message is transcribed by polling a transcription service; a text message is
  kept as it is.
 */
module Notes {
  import opened Text
  import opened Telegram

  datatype Kind = VoiceNote | TextNote

  /** One note; `timestamp` is the ISO text of the clock when it was saved. */
  datatype Note = Note(text: string, timestamp: string, kind: Kind)

  type Log = map<int, seq<Note>>

  function NotesOf(log: Log, chat: int): seq<Note> {
    if chat in log then log[chat] else []
  }

  /** `userNotes[chat].push(note)`, creating the list first when the chat has none. */
  function Append(log: Log, chat: int, note: Note): (r: Log)
    ensures r.Keys == log.Keys + {chat}
    ensures |r[chat]| == |NotesOf(log, chat)| + 1
    ensures r[chat][..|NotesOf(log, chat)|] == NotesOf(log, chat) && r[chat][|NotesOf(log, chat)|] == note
    ensures forall c :: c in log && c != chat ==> r[c] == log[c]
  {
    log[chat := NotesOf(log, chat) + [note]]
  }

  /** `after` is `before` with at most one note added to the end of `chat`'s list. */
  ghost predicate GrowsByAtMostOne(before: Log, after: Log, chat: int) {
    && after.Keys <= before.Keys + {chat}
    && before.Keys <= after.Keys
    && (forall c :: c in before && c != chat ==> after[c] == before[c])
    && (chat in after ==> |NotesOf(before, chat)| <= |after[chat]| <= |NotesOf(before, chat)| + 1
                          && after[chat][..|NotesOf(before, chat)|] == NotesOf(before, chat))
  }

  // ---------------------------------------------------------------------------
  // Transcription
  // ---------------------------------------------------------------------------

  const MaxPolls: nat := 30

  /** What one status request gives: a finished transcript, an error, still working, or a failed request. */
  datatype Poll = Completed(text: string) | Errored | Pending | RequestFailed

  /** The answer of the first poll that ends the wait, if any does. */
  function Settle(polls: seq<Poll>): Option<string> {
    if |polls| == 0 then None
    else match polls[0]
      case Completed(t) => Some(t)
      case Pending => Settle(polls[1..])
      case _ => None
  }

  /**
    What `transcribeVoice` returns (`None` for `null`): nothing when the job
    could not be submitted, else the outcome of at most `MaxPolls` polls.
    `polls[i]` is the answer the `i`-th poll would get.
   */
  function Transcript(submitted: bool, polls: seq<Poll>): Option<string>
    requires |polls| >= MaxPolls
  {
    if submitted then Settle(polls[..MaxPolls]) else None
  }

  /** The text comes back exactly when a poll within the limit completes after only pending ones. */
  lemma {:induction false} SettleCompleted(polls: seq<Poll>, t: string)
    ensures Settle(polls) == Some(t) <==>
      exists i :: 0 <= i < |polls| && polls[i] == Completed(t) && forall j :: 0 <= j < i ==> polls[j] == Pending
  {
    if |polls| > 0 {
      SettleCompleted(polls[1..], t);
      if polls[0] == Pending {
        if Settle(polls) == Some(t) {
          var i :| 0 <= i < |polls| - 1 && polls[1..][i] == Completed(t)
                   && forall j :: 0 <= j < i ==> polls[1..][j] == Pending;
          assert polls[i + 1] == Completed(t);
          assert forall j :: 0 <= j < i + 1 ==> polls[j] == Pending by {
            forall j | 0 <= j < i + 1 ensures polls[j] == Pending {
              if j > 0 { assert polls[j] == polls[1..][j - 1]; }
            }
          }
        }
        if exists i :: 0 <= i < |polls| && polls[i] == Completed(t) && forall j :: 0 <= j < i ==> polls[j] == Pending {
          var i :| 0 <= i < |polls| && polls[i] == Completed(t) && forall j :: 0 <= j < i ==> polls[j] == Pending;
          assert i > 0;
          assert polls[1..][i - 1] == Completed(t);
          assert forall j :: 0 <= j < i - 1 ==> polls[1..][j] == Pending by {
            forall j | 0 <= j < i - 1 ensures polls[1..][j] == Pending {
              assert polls[1..][j] == polls[j + 1];
            }
          }
        }
      }
    }
  }

  /** Nothing comes back when every poll within the limit is still pending: the wait times out. */
  lemma {:induction false} SettleTimesOut(polls: seq<Poll>)
    requires forall i :: 0 <= i < |polls| ==> polls[i] == Pending
    ensures Settle(polls) == None
  {
    if |polls| > 0 {
      assert forall i :: 0 <= i < |polls| - 1 ==> polls[1..][i] == polls[i + 1];
      SettleTimesOut(polls[1..]);
    }
  }

  /** Polls past the limit are never made, so they cannot change the answer. */
  lemma OnlyFirstPollsCount(submitted: bool, polls: seq<Poll>, polls': seq<Poll>)
    requires |polls| >= MaxPolls && |polls'| >= MaxPolls
    requires polls[..MaxPolls] == polls'[..MaxPolls]
    ensures Transcript(submitted, polls) == Transcript(submitted, polls')
  {
  }

  /** The polling loop: at most `MaxPolls` status requests, stopping at the first that settles. */
  method Transcribe(submitted: bool, polls: seq<Poll>) returns (r: Option<string>)
    requires |polls| >= MaxPolls
    ensures r == Transcript(submitted, polls)
  {
    if !submitted {
      return None;
    }
    var i := 0;
    while i < MaxPolls
      invariant 0 <= i <= MaxPolls
      invariant forall j :: 0 <= j < i ==> polls[j] == Pending
      invariant Settle(polls[..MaxPolls]) == Settle(polls[i..MaxPolls])
    {
      assert polls[i..MaxPolls][1..] == polls[i + 1..MaxPolls];
      match polls[i] {
        case Completed(t) => return Some(t);
        case Errored => return None;
        case RequestFailed => return None;
        case Pending =>
      }
      i := i + 1;
    }
    return None;
  }

  // ---------------------------------------------------------------------------
  // The handler
  // ---------------------------------------------------------------------------

  const Transcribing: string := "\U{1F3A4} Transcribing your voice note..."
  const TranscriptionFailed: string := "\U{274C} Transcription failed. Please try again."

  function VoiceSaved(text: string): string {
    "\U{1F4DD} Voice note saved:\n" + text
  }

  function TextSaved(text: string): string {
    "\U{1F4DD} Text note saved:\n" + text
  }

  /** Replies in order, the JSON reply (`ok`, and `error` when the handler threw), and the log afterwards. */
  datatype Reply = Reply(calls: seq<Call>, ok: bool, error: Option<string>, log: Log)

  /**
    `POST` of the notes skill. `body` is the forwarded message, `None` when the
    body cannot be read; `transcript` is what transcription returned for a
    voice message; `at` is the timestamp of the save.
   */
  function Post(log: Log, body: Option<Message>, transcript: Option<string>, at: string): (r: Reply)
    ensures body.None? ==> r == Reply([], false, Some("Internal error"), log)
    // Voice wins over text.
    ensures body.Some? && body.value.voice.Some? ==>
      var chat := body.value.chat;
      && r.ok && r.error.None? && |r.calls| == 2 && r.calls[0] == SendMessage(chat, Transcribing, Plain)
      && (HasText(transcript) ==>
            r.log == Append(log, chat, Note(transcript.value, at, VoiceNote))
            && r.calls[1] == SendMessage(chat, VoiceSaved(transcript.value), Plain))
      && (!HasText(transcript) ==> r.log == log && r.calls[1] == SendMessage(chat, TranscriptionFailed, Plain))
    ensures body.Some? && body.value.voice.None? && HasText(body.value.text) ==>
      var msg := body.value;
      && r.ok && r.error.None?
      && r.log == Append(log, msg.chat, Note(msg.text.value, at, TextNote))
      && r.calls == [SendMessage(msg.chat, TextSaved(msg.text.value), Plain)]
    ensures body.Some? && body.value.voice.None? && !HasText(body.value.text) ==>
      r == Reply([], false, None, log)
    // The log only ever grows by one note, in the sender's chat, and only on success.
    ensures body.Some? ==> GrowsByAtMostOne(log, r.log, body.value.chat)
    ensures r.log != log ==> r.ok
  {
    match body
    case None => Reply([], false, Some("Internal error"), log)
    case Some(msg) =>
      var chat := msg.chat;
      if msg.voice.Some? then
        var first := SendMessage(chat, Transcribing, Plain);
        if HasText(transcript) then
          var t := transcript.value;
          Reply([first, SendMessage(chat, VoiceSaved(t), Plain)], true, None, Append(log, chat, Note(t, at, VoiceNote)))
        else Reply([first, SendMessage(chat, TranscriptionFailed, Plain)], true, None, log)
      else if HasText(msg.text) then
        var t := msg.text.value;
        Reply([SendMessage(chat, TextSaved(t), Plain)], true, None, Append(log, chat, Note(t, at, TextNote)))
      else Reply([], false, None, log)
  }

  /** Notes already saved are never changed by later requests, in any chat. */
  lemma {:induction false} HistoryPreserved(log: Log, bodies: seq<Option<Message>>, transcripts: seq<Option<string>>, ats: seq<string>)
    requires |transcripts| == |bodies| && |ats| == |bodies|
    ensures var after := Replay(log, bodies, transcripts, ats);
      forall c :: c in log ==> c in after && |log[c]| <= |after[c]| && after[c][..|log[c]|] == log[c]
    decreases |bodies|
  {
    if |bodies| > 0 {
      var next := Post(log, bodies[0], transcripts[0], ats[0]).log;
      HistoryPreserved(next, bodies[1..], transcripts[1..], ats[1..]);
      var after := Replay(log, bodies, transcripts, ats);
      forall c | c in log
        ensures c in after && |log[c]| <= |after[c]| && after[c][..|log[c]|] == log[c]
      {
        assert c in next && |log[c]| <= |next[c]| && next[c][..|log[c]|] == log[c];
        assert after[c][..|next[c]|] == next[c];
        assert after[c][..|log[c]|] == next[c][..|log[c]|];
      }
    }
  }

  /**
    A run of requests, each against the log the previous one left: request `i`
    has body `bodies[i]`, transcript `transcripts[i]` and save time `ats[i]`.
   */
  function Replay(log: Log, bodies: seq<Option<Message>>, transcripts: seq<Option<string>>, ats: seq<string>): Log
    requires |transcripts| == |bodies| && |ats| == |bodies|
    decreases |bodies|
  {
    if |bodies| == 0 then log
    else Replay(Post(log, bodies[0], transcripts[0], ats[0]).log, bodies[1..], transcripts[1..], ats[1..])
  }
}

=== FILE: pattern.dfy ===
/**
  The reminder command pattern `^(\d{2}):(\d{2})\s+(.+)` (JavaScript, no
  flags). The router only tests it; the reminders handler reads its three
  groups. Without the `m` flag `^` anchors at the start of the whole text,
  and `.` matches anything but a line terminator.
 */
module Pattern {
  import opened Text

  /** `\d{2}:\d{2}` at the start of `t`. */
  predicate HasClock(t: string) {
    |t| >= 5 && IsDigit(t[0]) && IsDigit(t[1]) && t[2] == ':' && IsDigit(t[3]) && IsDigit(t[4])
  }

  /**
    `p` is a place where `\s+` (from index 5) can stop and `.+` can start: at
    least one white space character before it, all of them white space, and
    a character that is not a line terminator at `p`.
   */
  predicate CanStartTask(t: string, p: int) {
    && 6 <= p < |t|
    && (forall i :: 5 <= i < p ==> IsSpace(t[i]))
    && !IsLineTerminator(t[p])
  }

  /** The pattern matches `t`, as a regular-language membership. */
  ghost predicate ReminderShaped(t: string) {
    HasClock(t) && exists p :: CanStartTask(t, p)
  }

  /** `p` is where a backtracking matcher starts group 3: the last place it can. */
  ghost predicate GreedyStart(t: string, p: int) {
    CanStartTask(t, p) && forall p' :: CanStartTask(t, p') ==> p' <= p
  }

  /** Length of the longest prefix of `s` without a line terminator: what greedy `.+` takes. */
  function LineRun(s: string): (k: nat)
    ensures k <= |s|
    ensures forall i :: 0 <= i < k ==> !IsLineTerminator(s[i])
    ensures k < |s| ==> IsLineTerminator(s[k])
  {
    if |s| > 0 && !IsLineTerminator(s[0]) then 1 + LineRun(s[1..]) else 0
  }

  /** The three groups, and the index where the third begins. */
  datatype Captures = Captures(hh: string, mm: string, start: nat, task: string)

  /** The end of the white space run that starts at index 5. */
  function SpaceEnd(t: string): (q: nat)
    requires |t| >= 5
    ensures 5 <= q <= |t|
    ensures forall i :: 5 <= i < q ==> IsSpace(t[i])
    ensures q < |t| ==> !IsSpace(t[q])
  {
    5 + LeadingSpace(t[5..])
  }

  /** A place where `.+` can start cannot lie past the white space run. */
  lemma CanStartWithinRun(t: string, p: int)
    requires CanStartTask(t, p)
    ensures p <= SpaceEnd(t)
  {
    var q := SpaceEnd(t);
    if q < |t| {
      assert !IsSpace(t[q]);
    }
  }

  /** Scanning down from `p`, the last index at which `.+` can start. */
  function LastStart(t: string, p: nat): (r: Option<nat>)
    requires p >= 6
    ensures r.Some? ==> 6 <= r.value <= p && r.value < |t| && !IsLineTerminator(t[r.value])
    ensures r.Some? ==> forall j :: r.value < j <= p && j < |t| ==> IsLineTerminator(t[j])
    ensures r.None? ==> forall j :: 6 <= j <= p && j < |t| ==> IsLineTerminator(t[j])
    decreases p
  {
    if p < |t| && !IsLineTerminator(t[p]) then Some(p)
    else if p == 6 then None
    else LastStart(t, p - 1)
  }

  /** `text.match(pattern)`: the groups of the first (leftmost, greedy) match. */
  function Match(t: string): (r: Option<Captures>)
    ensures r.Some? <==> ReminderShaped(t)
    ensures r.Some? ==> var c := r.value;
      && c.hh == t[..2] && c.mm == t[3..5]
      && GreedyStart(t, c.start)
      && c.task == t[c.start..c.start + LineRun(t[c.start..])]
  {
    if !HasClock(t) || |t| < 6 || !IsSpace(t[5]) then
      assert !ReminderShaped(t);
      None
    else
      var q := SpaceEnd(t);
      match LastStart(t, q)
      case None =>
        assert !ReminderShaped(t) by {
          forall p | CanStartTask(t, p) ensures p <= q { CanStartWithinRun(t, p); }
        }
        None
      case Some(p) =>
        assert CanStartTask(t, p);
        assert GreedyStart(t, p) by {
          forall p' | CanStartTask(t, p') ensures p' <= p { CanStartWithinRun(t, p'); }
        }
        Some(Captures(t[..2], t[3..5], p, t[p..p + LineRun(t[p..])]))
  }

  /** Group 3 is never empty and holds no line terminator. */
  lemma TaskShape(t: string)
    requires Match(t).Some?
    ensures var task := Match(t).value.task;
      |task| > 0 && forall i :: 0 <= i < |task| ==> !IsLineTerminator(task[i])
  {
    var c := Match(t).value;
    assert t[c.start..][0] == t[c.start];
  }

  /**
    When `t` does not end in white space (as after `trim`), group 3 starts
    right after the whole white space run and so does not begin with white space.
   */
  lemma TrimmedTaskStart(t: string)
    requires Match(t).Some? && !IsSpace(t[|t| - 1])
    ensures Match(t).value.start == SpaceEnd(t)
    ensures !IsSpace(Match(t).value.task[0])
  {
    var c := Match(t).value;
    var q := SpaceEnd(t);
    CanStartWithinRun(t, c.start);
    assert q < |t|;
    assert CanStartTask(t, q);
    assert t[c.start..][0] == t[c.start];
  }

  /**
    On a text that does not end in white space, group 3 is the first line of
    what follows the white space after `HH:MM`.
   */
  lemma TrimmedTask(t: string)
    requires Match(t).Some? && !IsSpace(t[|t| - 1])
    ensures var task := Match(t).value.task;
      var q := SpaceEnd(t);
      && 0 < |task| && q + |task| <= |t| && t[q..q + |task|] == task
      && !IsSpace(task[0])
      && (forall i :: 0 <= i < |task| ==> !IsLineTerminator(task[i]))
      && (q + |task| == |t| || IsLineTerminator(t[q + |task|]))
  {
    TaskShape(t);
    TrimmedTaskStart(t);
    var c := Match(t).value;
    var k := LineRun(t[c.start..]);
    if c.start + k < |t| {
      assert t[c.start + k] == t[c.start..][k];
    }
  }

  /** `pattern.test(text)`: a left-to-right scan over the white space after `HH:MM`. */
  method Test(t: string) returns (b: bool)
    ensures b <==> ReminderShaped(t)
  {
    if !HasClock(t) || |t| < 6 || !IsSpace(t[5]) {
      assert !ReminderShaped(t);
      return false;
    }
    var i := 6;
    while i < |t| && IsSpace(t[i])
      invariant 6 <= i <= |t|
      invariant forall j :: 5 <= j < i ==> IsSpace(t[j])
      invariant forall j :: 6 <= j < i ==> IsLineTerminator(t[j])
    {
      if !IsLineTerminator(t[i]) {
        assert CanStartTask(t, i);
        return true;
      }
      i := i + 1;
    }
    if i < |t| {
      assert CanStartTask(t, i);
      return true;
    }
    assert !ReminderShaped(t);
    return false;
  }
}

=== FILE: reminders.dfy ===
/**
  The reminders skill: reads `HH:MM Task` from a forwarded message, works out
  the next time the clock shows HH:MM, and adds the reminder to the sorted set
  `tg:reminders` with its due time as the score.
 */
module Reminders {
  import opened Text
  import opened Json
  import opened Telegram
  import opened SortedSet
  import Pattern
  import Clock
  import Webhook

  const InvalidFormat: string := "\U{274C} Invalid format. Use <code>HH:MM Task</code>"
  const InvalidTime: string := "\U{274C} Invalid time. Use 24h HH:MM."

  /** `parseInt` of two decimal digits. */
  function TwoDigitValue(a: char, b: char): (n: nat)
    requires IsDigit(a) && IsDigit(b)
    ensures n < 100
  {
    10 * DigitValue(a) + DigitValue(b)
  }

  /** The hour a text that starts with `HH:MM` names. */
  function TypedHour(t: string): nat
    requires Pattern.HasClock(t)
  {
    TwoDigitValue(t[0], t[1])
  }

  function TypedMinute(t: string): nat
    requires Pattern.HasClock(t)
  {
    TwoDigitValue(t[3], t[4])
  }

  /**
    What the handler makes of a message text. Both groups are two ASCII digits,
    so `parseInt` never yields NaN and only the range check can fail.
   */
  datatype Command = BadFormat | BadTime | Command(hour: nat, minute: nat, task: string)

  /** The verdict on a trimmed text. */
  function ParseCommand(t: string): (p: Command)
    ensures p == BadFormat <==> !Pattern.ReminderShaped(t)
    ensures p != BadFormat ==> Pattern.HasClock(t)
    ensures p == BadTime <==> p != BadFormat && (TypedHour(t) > 23 || TypedMinute(t) > 59)
    ensures p.Command? ==> p.hour == TypedHour(t) && p.minute == TypedMinute(t)
    ensures p.Command? ==> p.hour < 24 && p.minute < 60
    // The task is the first line of what follows the white space after `HH:MM`.
    ensures p.Command? && !IsSpace(t[|t| - 1]) ==>
      var q := Pattern.SpaceEnd(t);
      && 0 < |p.task| && q + |p.task| <= |t| && t[q..q + |p.task|] == p.task
      && !IsSpace(p.task[0])
      && (forall i :: 0 <= i < |p.task| ==> !IsLineTerminator(p.task[i]))
      && (q + |p.task| == |t| || IsLineTerminator(t[q + |p.task|]))
  {
    match Pattern.Match(t)
    case None => BadFormat
    case Some(c) =>
      assert c.hh == t[..2] && c.mm == t[3..5];
      var hours := TwoDigitValue(c.hh[0], c.hh[1]);
      var minutes := TwoDigitValue(c.mm[0], c.mm[1]);
      if hours > 23 || minutes > 59 then BadTime
      else
        if !IsSpace(t[|t| - 1]) then
          Pattern.TrimmedTask(t);
          Command(hours, minutes, c.task)
        else Command(hours, minutes, c.task)
  }

  /** `r:<chatId>:<Date.now()>`. */
  function ReminderId(chat: int, stamp: int): (id: string)
    ensures |id| > 4 && id[..2] == "r:"
  {
    "r:" + Decimal(chat) + ":" + Decimal(stamp)
  }

  /** An id names its chat and its clock reading: different ones give different ids. */
  lemma ReminderIdInjective(chat: int, stamp: int, chat': int, stamp': int)
    requires ReminderId(chat, stamp) == ReminderId(chat', stamp')
    ensures chat == chat' && stamp == stamp'
  {
    var a, b, a', b' := Decimal(chat), Decimal(stamp), Decimal(chat'), Decimal(stamp');
    assert ReminderId(chat, stamp)[2..] == a + [':'] + b;
    assert ReminderId(chat', stamp')[2..] == a' + [':'] + b';
    DecimalLacks(chat, ':');
    DecimalLacks(chat', ':');
    SplitAtSeparator(a, b, a', b', ':');
    DecimalInjective(chat, chat');
    DecimalInjective(stamp, stamp');
  }

  /** The object `{ id, chatId, task, dueMs }`, fields in that order. */
  function Record(id: string, chat: int, task: string, due: int): Json {
    JObj([Field("id", JStr(id)), Field("chatId", JNum(chat)), Field("task", JStr(task)), Field("dueMs", JNum(due))])
  }

  /** The sorted-set member: the record's JSON text, which `JSON.parse` reads back as the record. */
  function Member(id: string, chat: int, task: string, due: int): (m: string)
    ensures Parse(m) == Some(Record(id, chat, task, due))
  {
    RoundTrip(Record(id, chat, task, due));
    Serialise(Record(id, chat, task, due))
  }

  /** A stored member reads back, field by field, as what was stored. */
  lemma MemberReadsBack(id: string, chat: int, task: string, due: int)
    ensures Parse(Member(id, chat, task, due)) == Some(Record(id, chat, task, due))
    ensures var v := Record(id, chat, task, due);
      && Lookup(v, "id") == Some(JStr(id))
      && Lookup(v, "chatId") == Some(JNum(chat))
      && Lookup(v, "task") == Some(JStr(task))
      && Lookup(v, "dueMs") == Some(JNum(due))
  {
    RoundTrip(Record(id, chat, task, due));
    var fs := Record(id, chat, task, due).fields;
    assert |"id"| == 2 && |"chatId"| == 6 && |"task"| == 4 && |"dueMs"| == 5;
    LookupUnique(fs, 0, "id");
    LookupUnique(fs, 1, "chatId");
    LookupUnique(fs, 2, "task");
    LookupUnique(fs, 3, "dueMs");
  }

  /** The result of one request: replies in order, the JSON reply, and the reminder set afterwards. */
  datatype Outcome = Outcome(calls: seq<Call>, ok: bool, error: Option<string>, reminders: Option<seq<Entry>>)

  /** The confirmation for a saved reminder. */
  function Confirmation(due: int, offset: int, task: string): string {
    "\U{2705} Reminder saved for " + Clock.FormatHHmm(due, offset) + ": " + task
  }

  /**
    `POST` of the reminders skill. `body` is the forwarded message, or `None`
    when the request body is not JSON; `reminders` is the set, `None` without
    Redis; `now` is the clock read for the due time and `stamp` the one read for
    the id; `offset` is the zone's distance from UTC.
   */
  function Post(body: Option<Message>, reminders: Option<seq<Entry>>, now: int, stamp: int, offset: int): (o: Outcome)
    requires reminders.Some? ==> Valid(reminders.value)
    ensures body.None? ==> o == Outcome([], false, Some("Bad JSON"), reminders)
    // Nothing is stored unless the request succeeds.
    ensures !o.ok ==> o.reminders == reminders
    ensures o.ok ==> o.error.None? && (o.reminders.Some? <==> reminders.Some?)
    ensures o.reminders.Some? ==> Valid(o.reminders.value)
    ensures body.Some? ==>
      var msg := body.value;
      var raw := if msg.text.Some? then msg.text.value else "";
      match ParseCommand(Trim(raw))
      case BadFormat => o.calls == [SendMessage(msg.chat, InvalidFormat, Html)] && !o.ok && o.error.None?
      case BadTime => o.calls == [SendMessage(msg.chat, InvalidTime, Plain)] && !o.ok && o.error.None?
      case Command(h, m, task) =>
        var due := Clock.NextDue(now, offset, h, m);
        var member := Member(ReminderId(msg.chat, stamp), msg.chat, task, due);
        && o.ok
        && o.calls == [SendMessage(msg.chat, Confirmation(due, offset, task), Plain)]
        && (reminders.Some? ==>
              && Score(o.reminders.value, member) == Some(due)
              && forall m' :: m' != member ==> Score(o.reminders.value, m') == Score(reminders.value, m'))
  {
    match body
    case None => Outcome([], false, Some("Bad JSON"), reminders)
    case Some(msg) =>
      var raw := if msg.text.Some? then msg.text.value else "";
      match ParseCommand(Trim(raw))
      case BadFormat => Outcome([SendMessage(msg.chat, InvalidFormat, Html)], false, None, reminders)
      case BadTime => Outcome([SendMessage(msg.chat, InvalidTime, Plain)], false, None, reminders)
      case Command(h, m, task) =>
        var due := Clock.NextDue(now, offset, h, m);
        var member := Member(ReminderId(msg.chat, stamp), msg.chat, task, due);
        var reply := [SendMessage(msg.chat, Confirmation(due, offset, task), Plain)];
        if reminders.None? then Outcome(reply, true, None, None)
        else
          AddSetsScore(reminders.value, member, due);
          Outcome(reply, true, None, Some(Add(reminders.value, member, due)))
  }

  /** Two typed digits print back as themselves. */
  lemma Pad2OfTyped(a: char, b: char)
    requires IsDigit(a) && IsDigit(b)
    ensures Clock.Pad2(TwoDigitValue(a, b)) == [a, b]
  {
  }

  /** The confirmation shows the time exactly as it was typed. */
  lemma ConfirmationEchoesTypedTime(t: string, now: int, offset: int)
    requires ParseCommand(t).Command?
    ensures var p := ParseCommand(t);
      Clock.FormatHHmm(Clock.NextDue(now, offset, p.hour, p.minute), offset) == t[..5]
  {
    var p := ParseCommand(t);
    var due := Clock.NextDue(now, offset, p.hour, p.minute);
    hide ParseCommand;
    Clock.NextDueReading(now, offset, p.hour, p.minute);
    Pad2OfTyped(t[0], t[1]);
    Pad2OfTyped(t[3], t[4]);
    assert Clock.FormatHHmm(due, offset) == [t[0], t[1]] + ":" + [t[3], t[4]];
    assert t[..5] == [t[0], t[1]] + ":" + [t[3], t[4]];
  }

  // The router tests the text as sent; this handler tests it trimmed. The two
  // disagree at both ends.

  lemma TrimExamples()
    ensures Trim("09:00  ") == "09:00"
    ensures Trim(" 09:00 x") == "09:00 x"
  {
    var a := "09:00  ";
    assert LeadingSpace(a) == 0;
    assert a[..|a| - 1][..|a| - 2] == "09:00";
    assert TrailingSpace("09:00") == 0;
    assert TrailingSpace(a) == 2;
    var b := " 09:00 x";
    assert LeadingSpace(b[1..]) == 0;
    assert LeadingSpace(b) == 1;
    assert TrailingSpace(b[1..]) == 0;
  }

  /** `09:00` followed by two spaces is handed to this skill, which then refuses it. */
  lemma ForwardedThenRefused(chat: int, reminders: Option<seq<Entry>>, now: int, stamp: int, offset: int)
    requires reminders.Some? ==> Valid(reminders.value)
    ensures var msg := Message(chat, Some("09:00  "), None);
      && Webhook.Handle(Update(Some(msg), None)).handoff == Some((Webhook.Reminders, msg))
      && Post(Some(msg), reminders, now, stamp, offset).calls == [SendMessage(chat, InvalidFormat, Html)]
  {
    var t := "09:00  ";
    var msg := Message(chat, Some(t), None);
    TrimExamples();
    hide Webhook.Handle, Post, Trim;
    assert Pattern.CanStartTask(t, 6);
    assert Pattern.ReminderShaped(Webhook.TestedText(msg));
    assert t[..6][0] != "/start"[0];
    assert !Webhook.IsStart(msg);
    assert !Pattern.ReminderShaped("09:00");
    assert ParseCommand(Trim(t)) == BadFormat;
  }

  /** A command typed after a leading space is a valid reminder here, but the router sends it to notes. */
  lemma LeadingSpaceGoesToNotes(chat: int)
    ensures var msg := Message(chat, Some(" 09:00 x"), None);
      && Webhook.Handle(Update(Some(msg), None)).handoff == Some((Webhook.Notes, msg))
      && ParseCommand(Trim(" 09:00 x")) == Command(9, 0, "x")
  {
    var t := " 09:00 x";
    var msg := Message(chat, Some(t), None);
    TrimExamples();
    hide Webhook.Handle, Trim;
    assert t[..6][0] != "/start"[0];
    assert !Webhook.IsStart(msg);
    assert !Pattern.HasClock(t);
    assert '?' !in t;
    assert Pattern.CanStartTask("09:00 x", 6);
    assert Pattern.Match("09:00 x").Some?;
  }
}

=== FILE: telegram.dfy ===
/**
  The parts of Telegram Bot API objects the handlers read, and the calls they
  make back to Telegram.
 */
module Telegram {
  import opened Text

  /** A voice attachment, known by its file id. */
  datatype Voice = Voice(fileId: string)

  /** An inbound message: its chat, and its text and voice when present. */
  datatype Message = Message(chat: int, text: Option<string>, voice: Option<Voice>)

  /**
    A button press. `chat` is the chat of the message carrying the button; it is
    absent when Telegram omits that message.
   */
  datatype CallbackQuery = CallbackQuery(id: string, data: Option<string>, chat: Option<int>)

  datatype Update = Update(message: Option<Message>, callback: Option<CallbackQuery>)

  /** A text in a condition: absent and empty are falsy. */
  predicate HasText(text: Option<string>) {
    text.Some? && text.value != ""
  }

  datatype Button = Button(caption: string, data: string)

  /** How a sent message is rendered. */
  datatype Markup =
    | Plain
    | Markdown
    | Html
    | Keyboard(rows: seq<seq<Button>>)

  /** An outbound Bot API call. */
  datatype Call =
    | AnswerCallback(id: string)
    | SendMessage(chat: int, text: string, markup: Markup)
}

=== FILE: text.dfy ===
/**
  Text primitives shared by every handler: the optional value, the character
  classes of JavaScript regular expressions (`\d`, `\s`, `.`), `String.prototype.trim`
  and the decimal rendering of integers used by template literals and by
  `JSON.stringify`.
 */
module Text {

  datatype Option<T> = None | Some(value: T)

  /** `\d` in a JavaScript regular expression without the `u` flag. */
  predicate IsDigit(c: char) {
    '0' <= c <= '9'
  }

  function DigitValue(c: char): (d: nat)
    requires IsDigit(c)
    ensures d < 10
  {
    (c as int) - ('0' as int)
  }

  function DigitChar(d: nat): (c: char)
    requires d < 10
    ensures IsDigit(c) && DigitValue(c) == d
  {
    (('0' as int) + d) as char
  }

  /** The ECMAScript LineTerminator set: the characters `.` refuses to match. */
  predicate IsLineTerminator(c: char) {
    c == '\n' || c == '\r' || c == '\U{2028}' || c == '\U{2029}'
  }

  /**
    The ECMAScript WhiteSpace and LineTerminator sets together: what `\s`
    matches and what `trim` removes.
   */
  predicate IsSpace(c: char) {
    || c == '\t' || c == '\U{000B}' || c == '\U{000C}' || c == ' '
    || c == '\U{00A0}' || c == '\U{FEFF}' || c == '\U{1680}'
    || ('\U{2000}' <= c <= '\U{200A}')
    || c == '\U{202F}' || c == '\U{205F}' || c == '\U{3000}'
    || IsLineTerminator(c)
  }

  predicate AllDigits(s: string) {
    forall i :: 0 <= i < |s| ==> IsDigit(s[i])
  }

  // ---------------------------------------------------------------------------
  // Decimal numerals
  // ---------------------------------------------------------------------------

  /** The shortest decimal numeral of `n`: no sign, no leading zero. */
  function NatDigits(n: nat): (s: string)
    ensures |s| > 0 && AllDigits(s)
    ensures s[0] == '0' <==> n == 0
    ensures n == 0 ==> s == "0"
    decreases n
  {
    if n < 10 then [DigitChar(n)] else NatDigits(n / 10) + [DigitChar(n % 10)]
  }

  /** The value of a string of decimal digits, read most significant first. */
  function DigitsValue(s: string): nat
    requires AllDigits(s)
  {
    if |s| == 0 then 0 else 10 * DigitsValue(s[..|s| - 1]) + DigitValue(s[|s| - 1])
  }

  lemma {:induction false} DigitsRoundTrip(n: nat)
    ensures DigitsValue(NatDigits(n)) == n
    decreases n
  {
    if n >= 10 {
      var s := NatDigits(n);
      DigitsRoundTrip(n / 10);
      assert s[..|s| - 1] == NatDigits(n / 10);
    }
  }

  /** How JavaScript renders an integral number: `${n}` and `JSON.stringify(n)`. */
  function Decimal(n: int): (s: string)
    ensures |s| > 0
    ensures s[0] == '-' <==> n < 0
    ensures n >= 0 ==> AllDigits(s)
  {
    if n < 0 then "-" + NatDigits(-n) else NatDigits(n)
  }

  /** Length of the longest prefix of `s` made of digits. */
  function DigitRun(s: string): (k: nat)
    ensures k <= |s|
    ensures AllDigits(s[..k])
    ensures k < |s| ==> !IsDigit(s[k])
  {
    if |s| > 0 && IsDigit(s[0]) then
      var k := 1 + DigitRun(s[1..]);
      assert s[..k] == [s[0]] + s[1..][..k - 1];
      k
    else 0
  }

  lemma DigitRunOfDigits(d: string, rest: string)
    requires AllDigits(d)
    requires rest == [] || !IsDigit(rest[0])
    ensures DigitRun(d + rest) == |d|
    ensures (d + rest)[..|d|] == d && (d + rest)[|d|..] == rest
  {
    if |d| > 0 {
      assert (d + rest)[1..] == d[1..] + rest;
      DigitRunOfDigits(d[1..], rest);
    }
  }

  // ---------------------------------------------------------------------------
  // String.prototype.trim
  // ---------------------------------------------------------------------------

  function LeadingSpace(s: string): (k: nat)
    ensures k <= |s|
    ensures forall i :: 0 <= i < k ==> IsSpace(s[i])
    ensures k < |s| ==> !IsSpace(s[k])
  {
    if |s| > 0 && IsSpace(s[0]) then 1 + LeadingSpace(s[1..]) else 0
  }

  function TrailingSpace(s: string): (k: nat)
    ensures k <= |s|
    ensures forall i :: |s| - k <= i < |s| ==> IsSpace(s[i])
    ensures k < |s| ==> !IsSpace(s[|s| - k - 1])
  {
    if |s| > 0 && IsSpace(s[|s| - 1]) then 1 + TrailingSpace(s[..|s| - 1]) else 0
  }

  /** `r` is `s` with a run of white space cut from the front (`a` characters) and one from the back. */
  predicate TrimmedAt(s: string, r: string, a: nat) {
    && a + |r| <= |s| && s[a..a + |r|] == r
    && (forall i :: 0 <= i < a ==> IsSpace(s[i]))
    && (forall i :: a + |r| <= i < |s| ==> IsSpace(s[i]))
  }

  /** Removes the white space and line terminators at both ends of `s`. */
  function Trim(s: string): (r: string)
    ensures |r| > 0 ==> !IsSpace(r[0]) && !IsSpace(r[|r| - 1])
    ensures exists a :: TrimmedAt(s, r, a)
  {
    var a := LeadingSpace(s);
    var t := s[a..];
    var r := t[..|t| - TrailingSpace(t)];
    assert TrimmedAt(s, r, a);
    r
  }

  /** Trimming changes nothing when neither end is white space. */
  lemma TrimOfTrimmed(s: string)
    requires |s| > 0 ==> !IsSpace(s[0]) && !IsSpace(s[|s| - 1])
    ensures Trim(s) == s
  {
  }

  predicate StartsWith(s: string, prefix: string) {
    |prefix| <= |s| && s[..|prefix|] == prefix
  }

  /** Different integers render differently. */
  lemma DecimalInjective(a: int, b: int)
    requires Decimal(a) == Decimal(b)
    ensures a == b
  {
    if a < 0 {
      assert Decimal(a)[1..] == NatDigits(-a) && Decimal(b)[1..] == NatDigits(-b);
      DigitsRoundTrip(-a);
      DigitsRoundTrip(-b);
    } else {
      DigitsRoundTrip(a);
      DigitsRoundTrip(b);
    }
  }

  /** A rendered integer holds nothing but digits and a leading minus sign. */
  lemma DecimalLacks(n: int, c: char)
    requires c != '-' && !IsDigit(c)
    ensures c !in Decimal(n)
  {
    var d := NatDigits(if n < 0 then -n else n);
    assert c !in d;
    if n < 0 {
      assert Decimal(n) == "-" + d;
    }
  }

  /** Text joined at a separator that neither left part holds splits back into its parts. */
  lemma SplitAtSeparator(x: string, y: string, x': string, y': string, sep: char)
    requires sep !in x && sep !in x'
    requires x + [sep] + y == x' + [sep] + y'
    ensures x == x' && y == y'
  {
    var s := x + [sep] + y;
    // Both |x| and |x'| are the index of the first separator in s.
    assert s[|x|] == sep && s[|x'|] == sep;
    assert forall i :: 0 <= i < |x| ==> s[i] == x[i] != sep;
    assert forall i :: 0 <= i < |x'| ==> s[i] == x'[i] != sep;
    assert |x| == |x'|;
    assert x == s[..|x|] == x';
    assert y == s[|x| + 1..] == y';
  }
}

=== FILE: webhook.dfy ===
/**
  The webhook entry point: every update from Telegram becomes exactly one
  action — a button press answered with a prompt, the main menu, a hand-off of
  the message to one of the three skills, or nothing.
 */
module Webhook {
  import opened Text
  import opened Telegram
  import Pattern

  datatype Skill = Reminders | Decisions | Notes

  /** What a button press (or `/start`) shows. */
  datatype Prompt = ReminderPrompt | NotesPrompt | DecisionsPrompt | MainMenu

  datatype Action =
    | Press(callbackId: string, chat: int, prompt: Prompt)
    | ShowMenu(chat: int)
    | Forward(skill: Skill, msg: Message)
    | Ignore
      /** Reading the chat of a button press whose message is absent throws. */
    | Fault

  /** The HTTP outcome: the JSON `{ ok: true }`, or an unhandled exception. */
  datatype Status = OkTrue | ServerError

  /** Everything one update causes: Bot API calls in order, a hand-off, and the reply. */
  datatype Response = Response(calls: seq<Call>, handoff: Option<(Skill, Message)>, status: Status)

  const MenuText: string := "Hi! I'm Optimo \U{1F916}. Choose a mode:"

  const MenuKeyboard: seq<seq<Button>> :=
    [ [Button("Reminders", "reminder")],
      [Button("Notes", "notes")],
      [Button("Decisions", "decisions")] ]

  /** The message a prompt sends. */
  function PromptMessage(chat: int, p: Prompt): Call {
    match p
    case ReminderPrompt => SendMessage(chat, "\U{23F0} Send your reminder in this format:\n`HH:MM Task`", Markdown)
    case NotesPrompt => SendMessage(chat, "\U{1F4DD} Send me a note (text or voice).", Plain)
    case DecisionsPrompt => SendMessage(chat, "\U{2696}\U{FE0F} Describe your decision question:", Plain)
    case MainMenu => SendMessage(chat, MenuText, Keyboard(MenuKeyboard))
  }

  /** The switch on a button's callback data: the three skills, and the menu for anything else. */
  function PromptFor(data: Option<string>): (p: Prompt)
    ensures p == MainMenu <==> data !in {Some("reminder"), Some("notes"), Some("decisions")}
  {
    match data
    case Some("reminder") => ReminderPrompt
    case Some("notes") => NotesPrompt
    case Some("decisions") => DecisionsPrompt
    case _ => MainMenu
  }

  /** The branch the handler takes, checked in source order. */
  function Classify(u: Update): (a: Action)
    ensures a.Fault? <==> u.callback.Some? && u.callback.value.chat.None?
    ensures a.Press? <==> u.callback.Some? && u.callback.value.chat.Some?
    ensures a.Forward? ==> u.callback.None? && u.message == Some(a.msg) && (HasText(a.msg.text) || a.msg.voice.Some?)
    ensures a.Forward? && a.skill == Reminders <==>
      u.callback.None? && u.message.Some? && !IsStart(u.message.value) && Pattern.ReminderShaped(TestedText(u.message.value))
  {
    if u.callback.Some? then
      var q := u.callback.value;
      if q.chat.None? then Fault else Press(q.id, q.chat.value, PromptFor(q.data))
    else if u.message.Some? then
      var msg := u.message.value;
      if IsStart(msg) then ShowMenu(msg.chat)
      else if Pattern.Match(TestedText(msg)).Some? then Forward(Reminders, msg)
      else if HasText(msg.text) && '?' in msg.text.value then Forward(Decisions, msg)
      else if HasText(msg.text) || msg.voice.Some? then Forward(Notes, msg)
      else Ignore
    else Ignore
  }

  /** Carries out an action; the Bot API and the skill hand-offs are taken to succeed. */
  function Perform(a: Action): Response {
    match a
    case Press(id, chat, p) => Response([AnswerCallback(id), PromptMessage(chat, p)], None, OkTrue)
    case ShowMenu(chat) => Response([PromptMessage(chat, MainMenu)], None, OkTrue)
    case Forward(skill, msg) => Response([], Some((skill, msg)), OkTrue)
    case Ignore => Response([], None, OkTrue)
    case Fault => Response([], None, ServerError)
  }

  /** The text the reminder check tests: an absent text reads as empty. */
  function TestedText(msg: Message): string {
    if msg.text.Some? then msg.text.value else ""
  }

  predicate IsStart(msg: Message) {
    msg.text.Some? && StartsWith(msg.text.value, "/start")
  }

  /** `POST` of the webhook. */
  function Handle(u: Update): (r: Response)
    // A button press is only ever a button press: answered first, then one prompt.
    ensures u.callback.Some? ==> r.handoff.None?
    ensures u.callback.Some? ==> (r.status == OkTrue <==> u.callback.value.chat.Some?)
    // A press without a message throws reading its chat, before any call is made.
    ensures u.callback.Some? && u.callback.value.chat.None? ==> r == Response([], None, ServerError)
    ensures u.callback.Some? && u.callback.value.chat.Some? ==>
      var q := u.callback.value;
      r.calls == [AnswerCallback(q.id), PromptMessage(q.chat.value, PromptFor(q.data))]
    ensures u.callback.None? ==> r.status == OkTrue
    // Messages, in the order the checks run.
    ensures u.callback.None? && u.message.Some? && IsStart(u.message.value) ==>
      r.calls == [PromptMessage(u.message.value.chat, MainMenu)] && r.handoff.None?
    ensures u.callback.None? && u.message.Some? && !IsStart(u.message.value)
            && Pattern.ReminderShaped(TestedText(u.message.value)) ==>
      r.handoff == Some((Reminders, u.message.value)) && r.calls == []
    ensures u.callback.None? && u.message.Some? && !IsStart(u.message.value)
            && !Pattern.ReminderShaped(TestedText(u.message.value)) && '?' in TestedText(u.message.value) ==>
      r.handoff == Some((Decisions, u.message.value)) && r.calls == []
    ensures u.callback.None? && u.message.Some? && !IsStart(u.message.value)
            && !Pattern.ReminderShaped(TestedText(u.message.value)) && '?' !in TestedText(u.message.value)
            && (HasText(u.message.value.text) || u.message.value.voice.Some?) ==>
      r.handoff == Some((Notes, u.message.value)) && r.calls == []
    // Everything else does nothing.
    ensures u.callback.None? && (u.message.None? || (!HasText(u.message.value.text) && u.message.value.voice.None?)) ==>
      r == Response([], None, OkTrue)
    // A hand-off carries the message untouched.
    ensures r.handoff.Some? ==> u.callback.None? && u.message == Some(r.handoff.value.1)
  {
    Perform(Classify(u))
  }

  /** Every button of the main menu leads to its own skill prompt, never back to the menu. */
  lemma MenuButtonsLeadToPrompts()
    ensures forall row, b :: row in MenuKeyboard && b in row ==> PromptFor(Some(b.data)) != MainMenu
    ensures PromptFor(Some(MenuKeyboard[0][0].data)) == ReminderPrompt
    ensures PromptFor(Some(MenuKeyboard[1][0].data)) == NotesPrompt
    ensures PromptFor(Some(MenuKeyboard[2][0].data)) == DecisionsPrompt
  {
  }

  /** A voice message without text always goes to the notes skill. */
  lemma VoiceOnlyGoesToNotes(chat: int, voice: Voice)
    ensures Handle(Update(Some(Message(chat, None, Some(voice))), None)).handoff
            == Some((Notes, Message(chat, None, Some(voice))))
  {
  }

  /** A reminder-shaped text that also asks a question goes to reminders, not decisions. */
  lemma QuestionShapedReminder(chat: int)
    ensures var msg := Message(chat, Some("09:30 call mum?"), None);
            Handle(Update(Some(msg), None)).handoff == Some((Reminders, msg))
  {
    hide Handle, Classify, Perform;
    var t := "09:30 call mum?";
    assert Pattern.CanStartTask(t, 6);
    assert t[..6][0] != "/start"[0];
  }

  /** `/start` is a prefix test: `/startx` shows the menu too. */
  lemma StartPrefix(chat: int)
    ensures Handle(Update(Some(Message(chat, Some("/startx"), None)), None)).calls
            == [PromptMessage(chat, MainMenu)]
  {
  }
}

=== FILE: zset.dfy ===
/**
  The Redis sorted set that holds pending reminders under the key
  `tg:reminders`: members are the serialised reminders, each with a score
  (its due time in milliseconds). Redis keeps members unique and orders them
  by score, then by member text.
 */
module SortedSet {
  import opened Text

  datatype Entry = Entry(member: string, score: int)

  /**
    Lexicographic order on strings by code point. Redis compares members as
    UTF-8 bytes, and UTF-8 preserves code point order, so the two agree.
   */
  predicate StrLess(a: string, b: string)
    decreases |a|
  {
    if |a| == 0 then |b| > 0
    else if |b| == 0 then false
    else if a[0] != b[0] then a[0] < b[0]
    else StrLess(a[1..], b[1..])
  }

  lemma {:induction false} StrLessIrreflexive(a: string)
    ensures !StrLess(a, a)
    decreases |a|
  {
    if |a| > 0 {
      StrLessIrreflexive(a[1..]);
    }
  }

  lemma {:induction false} StrLessTransitive(a: string, b: string, c: string)
    requires StrLess(a, b) && StrLess(b, c)
    ensures StrLess(a, c)
    decreases |a|
  {
    if |a| > 0 && a[0] == b[0] && b[0] == c[0] {
      StrLessTransitive(a[1..], b[1..], c[1..]);
    }
  }

  lemma {:induction false} StrLessTotal(a: string, b: string)
    requires a != b
    ensures StrLess(a, b) || StrLess(b, a)
    decreases |a|
  {
    if |a| > 0 && |b| > 0 && a[0] == b[0] {
      assert a == [a[0]] + a[1..] && b == [b[0]] + b[1..];
      StrLessTotal(a[1..], b[1..]);
    }
  }

  /** The order Redis keeps: by score, ties broken by member. */
  predicate Before(x: Entry, y: Entry) {
    x.score < y.score || (x.score == y.score && StrLess(x.member, y.member))
  }

  lemma BeforeTransitive(x: Entry, y: Entry, z: Entry)
    requires Before(x, y) && Before(y, z)
    ensures Before(x, z)
  {
    if x.score == y.score == z.score {
      StrLessTransitive(x.member, y.member, z.member);
    }
  }

  lemma BeforeTotal(x: Entry, y: Entry)
    requires x.member != y.member
    ensures Before(x, y) || Before(y, x)
  {
    StrLessTotal(x.member, y.member);
  }

  /** `e` sorts before every entry of `z` and shares a member with none. */
  predicate Precedes(e: Entry, z: seq<Entry>) {
    forall x :: x in z ==> Before(e, x) && e.member != x.member
  }

  /** A well-formed sorted set: strictly ordered and no member twice. */
  predicate Valid(z: seq<Entry>) {
    |z| == 0 || (Precedes(z[0], z[1..]) && Valid(z[1..]))
  }

  /** Valid, read by position: every entry sorts before every later one and shares no member with it. */
  lemma {:induction false} ValidOrdered(z: seq<Entry>)
    requires Valid(z)
    ensures forall i, j :: 0 <= i < j < |z| ==> Before(z[i], z[j]) && z[i].member != z[j].member
    decreases |z|
  {
    if |z| > 0 {
      ValidOrdered(z[1..]);
      forall i, j | 0 <= i < j < |z|
        ensures Before(z[i], z[j]) && z[i].member != z[j].member
      {
        assert z[j] == z[1..][j - 1];
        if i > 0 {
          assert z[i] == z[1..][i - 1];
        }
      }
    }
  }

  function Members(z: seq<Entry>): (ms: seq<string>)
    ensures |ms| == |z|
    ensures forall i :: 0 <= i < |z| ==> ms[i] == z[i].member
  {
    if |z| == 0 then [] else [z[0].member] + Members(z[1..])
  }

  predicate HasMember(z: seq<Entry>, m: string) {
    exists e :: e in z && e.member == m
  }

  /** ZSCORE: the score of `m`, if it is a member. */
  function Score(z: seq<Entry>, m: string): (r: Option<int>)
    requires Valid(z)
    ensures r.Some? <==> HasMember(z, m)
    ensures r.Some? ==> Entry(m, r.value) in z
  {
    if |z| == 0 then None
    else if z[0].member == m then Some(z[0].score)
    else Score(z[1..], m)
  }

  // ---------------------------------------------------------------------------
  // ZREM and ZADD
  // ---------------------------------------------------------------------------

  /** ZREM: `z` without the entry of `m`, if any. */
  function Remove(z: seq<Entry>, m: string): (r: seq<Entry>)
    ensures forall e :: e in r <==> e in z && e.member != m
    ensures Valid(z) ==> Valid(r)
    ensures !HasMember(z, m) ==> r == z
  {
    if |z| == 0 then []
    else if z[0].member == m then Remove(z[1..], m)
    else
      var r := [z[0]] + Remove(z[1..], m);
      assert r[1..] == Remove(z[1..], m);
      r
  }

  /** Places `e` among the entries it sorts between. */
  function Insert(z: seq<Entry>, e: Entry): (r: seq<Entry>)
    requires Valid(z) && !HasMember(z, e.member)
    ensures Valid(r)
    ensures forall x :: x in r <==> x in z || x == e
  {
    if |z| == 0 then [e]
    else if Before(e, z[0]) then
      assert Precedes(e, z) by {
        forall x | x in z[1..] { BeforeTransitive(e, z[0], x); }
      }
      assert ([e] + z)[1..] == z;
      [e] + z
    else
      BeforeTotal(e, z[0]);
      var r := [z[0]] + Insert(z[1..], e);
      assert r[1..] == Insert(z[1..], e);
      r
  }

  /** ZADD: `m` is a member with score `score` afterwards, whether or not it was before. */
  function Add(z: seq<Entry>, m: string, score: int): (r: seq<Entry>)
    requires Valid(z)
    ensures Valid(r)
    ensures forall e :: e in r <==> e == Entry(m, score) || (e in z && e.member != m)
  {
    Insert(Remove(z, m), Entry(m, score))
  }

  lemma AddSetsScore(z: seq<Entry>, m: string, score: int)
    requires Valid(z)
    ensures Score(Add(z, m, score), m) == Some(score)
    ensures forall m' :: m' != m ==> Score(Add(z, m, score), m') == Score(z, m')
  {
    var r := Add(z, m, score);
    assert Entry(m, score) in r;
    forall m' | m' != m
      ensures Score(r, m') == Score(z, m')
    {
      UniqueScore(z, m');
      UniqueScore(r, m');
    }
    UniqueScore(r, m);
  }

  /** In a valid set a member has one entry, so `Score` is the score of any entry of it. */
  lemma UniqueScore(z: seq<Entry>, m: string)
    requires Valid(z)
    ensures forall s :: Entry(m, s) in z ==> Score(z, m) == Some(s)
  {
    if |z| > 0 && z[0].member != m {
      UniqueScore(z[1..], m);
    }
  }

  lemma ScoresOfEntries(z: seq<Entry>)
    requires Valid(z)
    ensures forall e :: e in z ==> Score(z, e.member) == Some(e.score)
  {
    forall e | e in z
      ensures Score(z, e.member) == Some(e.score)
    {
      UniqueScore(z, e.member);
    }
  }

  // ---------------------------------------------------------------------------
  // ZRANGE
  // ---------------------------------------------------------------------------

  /**
    ZRANGE key start stop (by index): negative indices count from the end,
    out-of-range indices are clamped, an empty range gives nothing.
   */
  function RankRange(z: seq<Entry>, start: int, stop: int): (r: seq<string>)
    ensures |r| <= |z|
    ensures forall m :: m in r ==> HasMember(z, m)
  {
    var n := |z|;
    var a := if start < 0 then start + n else start;
    var b := if stop < 0 then stop + n else stop;
    var a' := if a < 0 then 0 else a;
    var b' := if b >= n then n - 1 else b;
    if a' > b' || a' >= n then []
    else
      var r := Members(z[a'..b' + 1]);
      assert forall i :: 0 <= i < |r| ==> z[a' + i] in z && r[i] == z[a' + i].member;
      r
  }

  /** ZRANGE key min max BYSCORE: the entries whose score lies in [lo, hi], in order. */
  function ScoreRangeEntries(z: seq<Entry>, lo: int, hi: int): (r: seq<Entry>)
    ensures forall e :: e in r <==> e in z && lo <= e.score <= hi
    ensures Valid(z) ==> Valid(r)
    ensures |r| <= |z|
  {
    if |z| == 0 then []
    else if lo <= z[0].score <= hi then
      var r := [z[0]] + ScoreRangeEntries(z[1..], lo, hi);
      assert r[1..] == ScoreRangeEntries(z[1..], lo, hi);
      r
    else ScoreRangeEntries(z[1..], lo, hi)
  }

  function ScoreRange(z: seq<Entry>, lo: int, hi: int): (r: seq<string>)
    ensures |r| <= |z|
    ensures forall m :: m in r ==> HasMember(z, m)
    // Each member once, in ascending (score, member) order.
    ensures Valid(z) ==> forall i, j :: 0 <= i < j < |r| ==>
      r[i] != r[j] && Before(Entry(r[i], Score(z, r[i]).value), Entry(r[j], Score(z, r[j]).value))
  {
    var es := ScoreRangeEntries(z, lo, hi);
    var r := Members(es);
    assert forall i :: 0 <= i < |es| ==> es[i] in z && r[i] == es[i].member;
    if Valid(z) then
      assert forall i :: 0 <= i < |r| ==> Entry(r[i], Score(z, r[i]).value) == es[i] by {
        ScoresOfEntries(z);
      }
      ValidOrdered(es);
      r
    else r
  }

  /** Every member a score range returns has its score in the range, and none is left out. */
  lemma ScoreRangeExact(z: seq<Entry>, lo: int, hi: int, m: string)
    requires Valid(z)
    ensures m in ScoreRange(z, lo, hi) <==> Score(z, m).Some? && lo <= Score(z, m).value <= hi
  {
    var es := ScoreRangeEntries(z, lo, hi);
    UniqueScore(z, m);
    if m in Members(es) {
      var i :| 0 <= i < |es| && Members(es)[i] == m;
      assert es[i] in z;
    }
    if Score(z, m).Some? && lo <= Score(z, m).value <= hi {
      var e := Entry(m, Score(z, m).value);
      assert e in es;
      var i :| 0 <= i < |es| && es[i] == e;
      assert Members(es)[i] == m;
    }
  }

  /** An index range starting at 0 with a stop past the end returns every member, whatever its score. */
  lemma RankRangeTakesAll(z: seq<Entry>, stop: int)
    requires stop >= |z|
    ensures RankRange(z, 0, stop) == Members(z)
  {
    if |z| > 0 {
      assert z[0..|z| - 1 + 1] == z;
    }
  }
}
